=== FILE: README.md ===
# sunjar lexer and syntax tree, in Dafny

This project models two parts of the front end of the sunjar interpreter (Go):

- **The lexer** (`src/lexer/lexer.go`). It is a byte cursor over the source
  text. `NextToken` skips whitespace and then reads one token. Operators and
  punctuation are one or two bytes. Identifiers are runs of ASCII letters and
  `_`. Numbers are runs of digits and `.`, and one is a float exactly when it
  contains a `.`. A string ends at the next quote, a NUL byte, or the end of the
  input, so an unterminated string runs to the end. At the end of the input
  the lexer returns the end-of-input token; a NUL byte gives end-of-input only
  where a token would start. Anything else gives a
  one-byte illegal token.
- **The syntax tree** (`src/ast/ast.go`). There are node kinds for
  statements, expressions and programs. Each node has a `TokenLiteral` (the
  literal of the token stored in the node, which for infix, call and index
  expressions is the operator, `(` or `[` token) and a `String` rendering that puts
  parentheses around every prefix, infix and index expression.

Go strings are byte strings, so the model uses bytes throughout: `Tokens.Byte`
is a `char` below 256 and every input and literal is a `seq<Byte>`. The lexer
is an immutable record. Each Go method that mutates the lexer is a function
from one state to the next. `Lexer.Tokenize` is the stream a caller gets by
calling `NextToken` until it yields the end-of-input token. The keyword table
lives in the token package, which is not part of this model, so it is a
parameter. The model requires only that the table maps words to keyword kinds.

The syntax tree is a family of mutually recursive datatypes (`Ast.Stmt`,
`Ast.Expr`, `Ast.Block`). Absent children are `Option`s where Go would use
nil. The renderings are pure functions that follow the Go templates.

The main theorems are:

- **Literals are input slices.** Every token's literal is a slice of the
  input, or the encoding of the single byte it was scanned from. `Lexer.NextToken`
  states this through `LiteralFits`, and the `LexerProperties` lemmas give the
  exact token for each kind of input.
- **The token stream is well formed.** It ends in exactly one end-of-input
  token (`Lexer.Tokenize`). That token repeats forever once the input is used up
  (`LexerProperties.EofSticky`). On input without NUL bytes, it is returned
  exactly when only whitespace is left
  (`LexerProperties.EofExactlyWhenOnlyWhitespaceLeft`), and once returned it is
  returned again by every later call (`LexerProperties.EofRepeats`).
- **Renderings are fully bracketed.** Suppose the text a tree copies verbatim
  (names, operators, token literals) contains no brackets. Then its rendering
  is balanced in `()`, `[]` and `{}`, and every prefix, infix or index
  expression renders as one parenthesised group (`AstBrackets.ExprWellBracketed`).
  Leaves built from scanned identifiers and numbers meet that condition
  (`ScannedLeaves`).

A byte of 0x80 or more that starts no token becomes an ILLEGAL token. Go's
`string(byte)` conversion makes its literal the two-byte UTF-8 encoding of that
byte, so this literal is not a slice of the input. `Lexer.ByteString` models the
conversion, and `Lexer.LiteralFits` states the literal this way.

`IfExpression.String` puts no parentheses around the condition: it emits
`"if"`, the condition's rendering, a space and the consequence. So the tree for
`if (x) { return x; }` renders as `ifx return x;` (`AstExamples.IfExample`).

## Model

| member | source | states |
|---|---|---|
| `Tokens.LookupIdent` | src/lexer/lexer.go:82-83 | a scanned word's kind is its keyword kind when the table has one, else IDENT; specified by `LexerProperties.IdentifierToken` |
| `Lexer.New` | src/lexer/lexer.go:16-20 | a new lexer is positioned on the first byte of its input (position 0, current byte the first byte or NUL) |
| `Lexer.ReadChar` | src/lexer/lexer.go:116-124 | advancing moves the cursor to the read position; the current byte is NUL past the end; on a consistent state the cursor moves by exactly one and stays consistent |
| `Lexer.PeekChar` | src/lexer/lexer.go:160-165 | peeking yields the byte after the current one, or NUL past the end, without moving |
| `Lexer.ReadWhile` | src/lexer/lexer.go:126-157 | the shared scanning loop stops on the first rejected byte; every byte it passed over was accepted; it never moves backwards or past the end if it started within the input |
| `Lexer.SkipWhitespace` | src/lexer/lexer.go:152-157 | after skipping, the current byte is not space, tab, newline or carriage return, and every byte skipped was one of them |
| `Lexer.IsLetter` | src/lexer/lexer.go:134-137 | ASCII letters and `_`; the run it accepts is pinned down by `LexerProperties.IdentifierToken` and shown bracket-free by `ScannedLeaves.IdentifierLeaf` |
| `Lexer.IsDigit` | src/lexer/lexer.go:139-141 | ASCII digits and `.`; the run it accepts is pinned down by `LexerProperties.NumberToken` and shown bracket-free by `ScannedLeaves.NumberLeaf` |
| `Lexer.ReadIdentifier` | src/lexer/lexer.go:143-150 | the identifier is the input slice from the start to the first non-letter; all its bytes are letters or `_`; it is non-empty when it starts on a letter |
| `Lexer.ReadNumber` | src/lexer/lexer.go:126-132 | the number is the maximal run of digits and dots from the start, as an input slice; non-empty when it starts on a digit or dot |
| `Lexer.ReadString` | src/lexer/lexer.go:105-114 | the string is the slice after the opening quote up to the closing quote, NUL or end of input; none of its bytes is a quote or NUL |
| `Lexer.ByteString` | src/lexer/lexer.go:102 | Go's conversion of one byte to a string is the byte itself below 0x80, else its two-byte UTF-8 encoding, which decodes back to the byte |
| `Lexer.NewToken` | src/lexer/lexer.go:101-103 | a token made from one byte has the given kind and a one- or two-byte literal that is the byte itself exactly when it is ASCII, and that decodes back to the byte |
| `Lexer.Punctuator` | src/lexer/lexer.go:38-76 | the bytes that form a token on their own are ASCII and never give the end-of-input, string or illegal kind |
| `Lexer.ScanOperator` | src/lexer/lexer.go:29-37 | `=` or `!` gives the two-byte kind and literal when the next byte is `=`, and the one-byte kind and literal otherwise; the cursor moves past exactly the literal |
| `Lexer.ScanByte` | src/lexer/lexer.go:38-76 | a single-byte token takes the given kind and the current byte as its literal (its UTF-8 encoding when not ASCII), and the cursor moves by exactly one byte |
| `Lexer.ScanString` | src/lexer/lexer.go:26-28 | a string token's literal is the input right after the opening quote under the cursor, up to the closing quote, NUL or end; it holds neither, and the cursor ends one past that closing byte |
| `Lexer.ScanWord` | src/lexer/lexer.go:81-85 | an identifier token's kind is IDENT or a keyword kind and its literal is the scanned input slice |
| `Lexer.ScanNumber` | src/lexer/lexer.go:86-94 | a number token is INT or FLOAT and its literal is the scanned input slice |
| `Lexer.Scan` | src/lexer/lexer.go:25-98 | the dispatch on the current byte yields the end-of-input kind exactly on NUL, and every literal fits the input as described above |
| `Lexer.NextToken` | src/lexer/lexer.go:22-98 | every call moves the cursor forward; a token other than end-of-input leaves it at most one past the end; the literal is an input slice (or the encoded illegal byte, or empty at end of input) |
| `Lexer.Tokenize` | src/lexer/lexer.go:77-79 | calling NextToken until end-of-input terminates; the stream is non-empty, ends in end-of-input, and has no earlier end-of-input token |
| `LexerProperties.ReadWhileStopsAt` | src/lexer/lexer.go:153-157 | the scanning loop stops exactly at the end of the run of accepted bytes |
| `LexerProperties.SkipWhitespaceStopsAt` | src/lexer/lexer.go:153-157 | skipping whitespace stops exactly on the first non-whitespace byte |
| `LexerProperties.EofAtEnd` | src/lexer/lexer.go:77-79 | at or past the end of the input the next token is end-of-input with an empty literal |
| `LexerProperties.TokenizeAtEnd` | src/lexer/lexer.go:77-79 | a lexer at the end of its input yields only the end-of-input token |
| `LexerProperties.TokenizeStep` | src/lexer/lexer.go:22-98 | the stream is the next token followed by the stream from the state after it |
| `LexerProperties.EofSticky` | src/lexer/lexer.go:116-124 | once the input is used up, any number of further calls all return the end-of-input token |
| `LexerProperties.EofExactlyWhenOnlyWhitespaceLeft` | src/lexer/lexer.go:22-25 | on input without NUL bytes, the next token is end-of-input if and only if only whitespace remains |
| `LexerProperties.EofAfterEof` | src/lexer/lexer.go:77-79 | on input without NUL bytes, a call that returns end-of-input leaves the cursor at or past the end of the input |
| `LexerProperties.EofRepeats` | src/lexer/lexer.go:77-97 | on input without NUL bytes, once end-of-input has been returned, any number of further calls return it again |
| `LexerProperties.StringToken` | src/lexer/lexer.go:26-28 | after whitespace, a quote starts a string token whose literal is exactly the text up to the next quote, NUL byte or the end of the input, and the cursor ends one past that byte |
| `LexerProperties.EqualsToken` | src/lexer/lexer.go:29-37 | `==` gives one EQ token with literal `==`; `=` not followed by `=` gives ASSIGN with literal `=` |
| `LexerProperties.BangToken` | src/lexer/lexer.go:60-68 | `!=` gives one NOT_EQ token with literal `!=`; `!` otherwise gives BANG |
| `LexerProperties.PunctuatorToken` | src/lexer/lexer.go:38-76 | each single-byte symbol alone yields one token of its kind whose literal is the symbol |
| `LexerProperties.IdentifierToken` | src/lexer/lexer.go:81-85 | a run of letters is one token whose literal is the run and whose kind is the keyword table's entry, or IDENT |
| `LexerProperties.NumberToken` | src/lexer/lexer.go:86-94 | a run of digits and dots is one token, FLOAT if and only if it contains a dot, INT if and only if it does not |
| `LexerProperties.IllegalToken` | src/lexer/lexer.go:95 | any other byte gives one ILLEGAL token whose literal is that byte's string conversion, the byte itself when ASCII |
| `LexerExamples.QuotedString` | src/lexer/lexer.go:105-114 | a quoted text without quotes or NUL lexes to one string token holding exactly the text, then end-of-input |
| `LexerExamples.UnterminatedString` | src/lexer/lexer.go:105-114 | an unterminated string lexes to the same tokens as the terminated one: the truncation is invisible |
| `LexerExamples.LastToken` | src/lexer/lexer.go:77-79 | a token that ends at or past the end of the input is followed only by end-of-input |
| `LexerExamples.EqualityExample` | src/lexer/lexer.go:22-98 | `10 == 10;` lexes to INT `10`, EQ `==`, INT `10`, SEMICOLON, end-of-input |
| `LexerExamples.VarStatementExample` | src/lexer/lexer.go:22-98 | `var five = 5;` lexes to VAR, IDENT `five`, ASSIGN, INT `5`, SEMICOLON, end-of-input when `var` is a keyword and `five` is not |
| `LexerExamples.WholeInputNumber` | src/lexer/lexer.go:86-94 | an input of digits and dots is one number token then end-of-input, FLOAT exactly when it holds a dot |
| `LexerExamples.FloatExamples` | src/lexer/lexer.go:86-94 | `5.5` and `5.5.5` each lex to one FLOAT token holding the whole input: extra dots are accepted |
| `Text.Concat` | src/ast/ast.go:38-46 | the `out += s.String()` loop: the parts back to back; specified by `Text.ConcatAppend` |
| `Text.Join` | src/ast/ast.go:312-316 | `strings.Join`: the parts with the separator between neighbours; specified by `Text.JoinAppend` and `Text.JoinLength` |
| `Text.ConcatAppend` | src/ast/ast.go:38-46 | accumulating renderings one after another distributes over appending lists |
| `Text.JoinAppend` | src/ast/ast.go:305-320 | joining with one more part adds the separator and the part at the end |
| `Text.JoinLength` | src/ast/ast.go:384-395 | a joined text is as long as its parts plus one separator per neighbouring pair |
| `Ast.ProgramTokenLiteral` | src/ast/ast.go:30-36 | the first statement's token literal, or `""` for no statements; specified by `AstProperties.ProgramTokenLiteralFirst` |
| `Ast.StmtTokenLiteral` | src/ast/ast.go:56-252 | the literal of the token stored in the statement (the block's for a block statement); specified by `AstProperties.ProgramTokenLiteralFirst` |
| `Ast.ExprTokenLiteral` | src/ast/ast.go:83-431 | the literal of the token stored in the expression; specified by `AstProperties.LeafRendersTokenLiteral` and `AstProperties.IdentifierRendersValue` |
| `Ast.ProgramString` | src/ast/ast.go:38-46 | the statements' renderings back to back; specified by `AstProperties.ProgramStringAppend` and `AstBrackets.ProgramWellBracketed` |
| `Ast.BlockString` | src/ast/ast.go:254-262 | the statements' renderings back to back, without braces; specified by `AstProperties.BlockStringAppend` and `AstBrackets.BlockWellBracketed` |
| `Ast.StmtString` | src/ast/ast.go:60-133 | `var` statement: token, space, name, ` = `, optional value, `;`; `return`: token, space, optional value, `;`; expression statement: the expression or `""`; specified by `AstProperties.VarStatementValue`, `ReturnStatementValue`, `ExpressionStatementValue` and `AstBrackets.StmtWellBracketed` |
| `Ast.ExprString` | src/ast/ast.go:87-439 | identifier: its name; literals: their token literal; prefix `(op right)`; infix `(left op right)`; `if`, condition, space, block, optional `else` part; function: token, `(params)`, body; call `callee(args)`; `for`, condition, space, body; `[elems]`; `{k:v, ...}`; index `(left[index])`; specified by the `AstProperties` lemmas and `AstBrackets.ExprWellBracketed` |
| `AstProperties.StmtStringsAppend` | src/ast/ast.go:38-46 | the list of statement renderings follows the statements in order |
| `AstProperties.ProgramStringAppend` | src/ast/ast.go:38-46 | a program's rendering of two statement lists is the renderings of each, concatenated; the empty program renders empty |
| `AstProperties.BlockStringAppend` | src/ast/ast.go:254-262 | a block renders like a program of the same statements, concatenating without braces or separators |
| `AstProperties.ProgramTokenLiteralFirst` | src/ast/ast.go:30-36 | a program's token literal is its first statement's, unaffected by later statements, and empty for no statements |
| `AstProperties.LeafRendersTokenLiteral` | src/ast/ast.go:142-241 | integer, float, string and boolean literals render exactly as the literal they report as their token literal |
| `AstProperties.IdentifierRendersValue` | src/ast/ast.go:83-89 | an identifier renders its name, which matches its reported token literal exactly when the name equals that literal |
| `AstProperties.OperatorParenthesised` | src/ast/ast.go:192-226 | prefix and infix renderings always open with `(` and close with `)`, whatever the operands |
| `AstProperties.VarStatementValue` | src/ast/ast.go:60-74 | a var statement with a value renders as the one without it, with the value inserted before the final `;` |
| `AstProperties.ReturnStatementValue` | src/ast/ast.go:102-114 | a return statement with a value renders as the bare one with the value inserted before the final `;` |
| `AstProperties.ExpressionStatementValue` | src/ast/ast.go:127-133 | an expression statement renders as its expression, or as nothing when it has none |
| `AstProperties.IfAlternative` | src/ast/ast.go:277-291 | adding an alternative appends `else ` and the alternative's rendering to the if rendering |
| `AstProperties.EmptyLists` | src/ast/ast.go:305-419 | empty parameter, argument, element and pair lists render as `()`, `()`, `[]` and `{}` |
| `AstProperties.EncloseJoinAppend` | src/ast/ast.go:334-348 | one more item in a bracketed comma list inserts `, ` and the item before the closing bracket (only the item for an empty list) |
| `AstProperties.CallArgumentAppend` | src/ast/ast.go:334-348 | one more call argument is inserted before the closing parenthesis |
| `AstProperties.ArrayElementAppend` | src/ast/ast.go:384-395 | one more array element is inserted before the closing bracket |
| `AstProperties.HashEntryLength` | src/ast/ast.go:408-419 | one more hash entry, inserted at any position of the visit order, lengthens the rendering by its `key:value` text plus one `, ` when there were entries |
| `AstBrackets.PrefixShape` | src/ast/ast.go:192-201 | a prefix rendering is one parenthesised group when its operand is well bracketed |
| `AstBrackets.InfixShape` | src/ast/ast.go:216-226 | an infix rendering is one parenthesised group when both operands are well bracketed |
| `AstBrackets.IndexShape` | src/ast/ast.go:433-439 | an index rendering is one parenthesised group containing a balanced `[...]` |
| `AstBrackets.KeywordShape` | src/ast/ast.go:362-371 | the `if`/`for` template of keyword, condition, space and block keeps well-bracketed parts well bracketed |
| `AstBrackets.ElseShape` | src/ast/ast.go:285-288 | the else part, present or absent, is well bracketed when the alternative's verbatim text has no brackets |
| `AstBrackets.ListShape` | src/ast/ast.go:305-348 | a bracketed list between a well-bracketed head and tail is well bracketed |
| `AstBrackets.ExprsWellBracketed` | src/ast/ast.go:384-395 | the joined renderings of bracket-free expressions are well bracketed |
| `AstBrackets.PairWellBracketed` | src/ast/ast.go:411-413 | a `key:value` entry is well bracketed when key and value have no brackets in their verbatim text |
| `AstBrackets.PairsWellBracketed` | src/ast/ast.go:408-419 | the joined hash entries are well bracketed when every key and value has no brackets in its verbatim text |
| `AstBrackets.ParametersWellBracketed` | src/ast/ast.go:308-311 | the joined parameter names are well bracketed when the names have no brackets |
| `AstBrackets.OptionWellBracketed` | src/ast/ast.go:66-68 | an optional value's rendering is well bracketed, present or absent, when its verbatim text has no brackets |
| `AstBrackets.BlockExprWellBracketed` | src/ast/ast.go:277-371 | if, for and function literal renderings are well bracketed when their verbatim text has no brackets |
| `AstBrackets.ListExprWellBracketed` | src/ast/ast.go:334-419 | call, array and hash renderings are well bracketed when their verbatim text has no brackets |
| `AstBrackets.StmtWellBracketed` | src/ast/ast.go:60-133 | every statement renders well bracketed when its verbatim text has no brackets |
| `AstBrackets.BlockWellBracketed` | src/ast/ast.go:254-262 | every block renders well bracketed when its verbatim text has no brackets |
| `AstBrackets.ExprWellBracketed` | src/ast/ast.go:142-439 | every expression whose verbatim text has no brackets renders well bracketed, and prefix, infix and index expressions as one parenthesised group |
| `AstBrackets.ProgramWellBracketed` | src/ast/ast.go:38-46 | a whole program renders well bracketed when its verbatim text has no brackets |
| `ScannedLeaves.IdentifierLeaf` | src/ast/ast.go:83-89 | an identifier node for a scanned name that is not a keyword renders, and has as its token literal, exactly the name's input bytes, which have no brackets |
| `ScannedLeaves.NumberLeaf` | src/ast/ast.go:142-163 | an integer or float node for a scanned number renders exactly the number's input bytes, which have no brackets |
| `ScannedLeaves.StringLeaf` | src/ast/ast.go:172-178 | a string node for a scanned string renders the text between the quotes, without the quotes |
| `AstExamples.SumExample` | src/ast/ast.go:216-226 | the statement `5 + 5` renders as `(5 + 5)`, alone and as a program |
| `AstExamples.IfExample` | src/ast/ast.go:277-291 | the tree for `if (x) { return x; }` with no alternative renders as `ifx return x;` |
| `AstExamples.StringLiteralExample` | src/ast/ast.go:176-178 | a string literal holding `(` renders as `(`, which is not well bracketed |

## Left out

- The token package (`src/token`) is not part of this model. Its kinds are a datatype here. Its keyword map is the `KeywordTable` parameter, so no claim is made about which words are reserved.
- `LookupIdent` in the token package is modelled as a map lookup defaulting to IDENT, matching how the lexer uses it. Its actual table is not part of this model.
- Go's `int` positions are unbounded naturals here. Every call past the end of the input still advances the position, so about 2^63 calls would overflow a 64-bit position on any input; the model does not wrap.
- The hash literal's pairs are an ordered sequence. Go ranges over a map in an unspecified order, so its rendering order is unspecified. The sequence stands for the order one call happens to visit the map in. The theorems about hash literals (bracket balance, the length of the rendering) hold for every order, and none states where a particular entry appears.
- The node payloads that only the parser and evaluator use are omitted: the integer and float values and the boolean value. Rendering never reads them.
- The marker methods `statementNode` and `expressionNode` are replaced by the split into `Stmt` and `Expr`.
- Nil children that Go would dereference are not modelled: the identifier of a var statement, the operands of prefix, infix and index expressions, the conditions and callees, and the block bodies of if, for and function expressions. The datatypes make them always present. The optional children the code checks for nil are `Option`s.
- The cost of rendering by repeated string concatenation is left out.
- The parser, evaluator and REPL that use these packages are left out.

=== FILE: ast.dfy ===
/**
 The syntax tree (src/ast/ast.go): statements and expressions as two mutually
 recursive datatypes, and their TokenLiteral() and String() methods as
 structurally recursive functions.

 A pointer field the String() methods dereference unconditionally is a required
 child here; the four fields they test against nil are Options.
 */
module Ast {
  import opened Tokens
  import opened Wrappers
  import opened Text

  /** An identifier node: the IDENT token and the name it denotes. */
  datatype Ident = Ident(token: Token, value: Bytes)

  datatype Stmt =
    | VarStatement(token: Token, name: Ident, value: Option<Expr>)
    | ReturnStatement(token: Token, returnValue: Option<Expr>)
    | ExpressionStatement(token: Token, expression: Option<Expr>)
    | BlockStatement(block: Block)

  /** The body of a block: its '{' token and its statements in program order. */
  datatype Block = Block(token: Token, statements: seq<Stmt>)

  datatype Expr =
    | Identifier(ident: Ident)
    | IntegerLiteral(token: Token)
    | FloatLiteral(token: Token)
    | StringLiteral(token: Token, value: Bytes)
    | Boolean(token: Token)
    | PrefixExpression(token: Token, operator: Bytes, right: Expr)
    | InfixExpression(token: Token, left: Expr, operator: Bytes, right: Expr)
    | IfExpression(token: Token, condition: Expr, consequence: Block, alternative: Option<Block>)
    | FunctionLiteral(token: Token, parameters: seq<Ident>, body: Block)
    | CallExpression(token: Token, callee: Expr, arguments: seq<Expr>)
    | ForExpression(token: Token, condition: Expr, body: Block)
    | ArrayLiteral(token: Token, elements: seq<Expr>)
    | HashLiteral(token: Token, pairs: seq<Pair>)
    | IndexExpression(token: Token, left: Expr, index: Expr)

  /** One key-value entry of a hash literal, in the order the entries are rendered. */
  datatype Pair = Pair(key: Expr, value: Expr)

  /** The root: the program's statements in program order. */
  datatype Program = Program(statements: seq<Stmt>)

  // TokenLiteral()

  function StmtTokenLiteral(s: Stmt): Bytes
  {
    match s
    case BlockStatement(b) => b.token.literal
    case _ => s.token.literal
  }

  function ExprTokenLiteral(e: Expr): Bytes
  {
    match e
    case Identifier(id) => id.token.literal
    case _ => e.token.literal
  }

  /** The first statement's token literal, or "" for an empty program. */
  function ProgramTokenLiteral(p: Program): Bytes
  {
    if |p.statements| > 0 then StmtTokenLiteral(p.statements[0]) else []
  }

  // String()

  /** An identifier renders the name it denotes, not its token. */
  function IdentString(id: Ident): Bytes
  {
    id.value
  }

  /** The rendering of an optional child: "" when it is absent. */
  function OptionString(e: Option<Expr>): Bytes
    decreases e, 1
  {
    match e
    case None => []
    case Some(x) => ExprString(x)
  }

  function StmtString(s: Stmt): Bytes
    decreases s, 2
  {
    match s
    case VarStatement(tok, name, value) =>
      tok.literal + " " + IdentString(name) + " = " + OptionString(value) + ";"
    case ReturnStatement(tok, value) =>
      tok.literal + " " + OptionString(value) + ";"
    case ExpressionStatement(_, value) =>
      OptionString(value)
    case BlockStatement(b) =>
      BlockString(b)
  }

  /** A block renders its statements back to back, without the braces. */
  function BlockString(b: Block): Bytes
    decreases b, 0
  {
    Concat(StmtStrings(b.statements))
  }

  /** The renderings of a list of statements, in order. */
  function StmtStrings(ss: seq<Stmt>): (r: seq<Bytes>)
    decreases ss, 1
  {
    seq(|ss|, i requires 0 <= i < |ss| => StmtString(ss[i]))
  }

  function ExprString(e: Expr): Bytes
    decreases e, 0
  {
    match e
    case Identifier(id) => IdentString(id)
    case IntegerLiteral(tok) => tok.literal
    case FloatLiteral(tok) => tok.literal
    case StringLiteral(tok, _) => tok.literal
    case Boolean(tok) => tok.literal
    case PrefixExpression(_, op, right) =>
      "(" + op + ExprString(right) + ")"
    case InfixExpression(_, left, op, right) =>
      "(" + ExprString(left) + " " + op + " " + ExprString(right) + ")"
    case IfExpression(_, condition, consequence, alternative) =>
      "if" + ExprString(condition) + " " + BlockString(consequence) +
      (match alternative
       case None => []
       case Some(alt) => "else " + BlockString(alt))
    case FunctionLiteral(tok, parameters, body) =>
      tok.literal + "(" + Join(IdentStrings(parameters), ", ") + ")" + BlockString(body)
    case CallExpression(_, callee, arguments) =>
      ExprString(callee) + "(" + Join(ExprStrings(arguments), ", ") + ")"
    case ForExpression(_, condition, body) =>
      "for" + ExprString(condition) + " " + BlockString(body)
    case ArrayLiteral(_, elements) =>
      "[" + Join(ExprStrings(elements), ", ") + "]"
    case HashLiteral(_, pairs) =>
      "{" + Join(PairStrings(pairs), ", ") + "}"
    case IndexExpression(_, left, index) =>
      "(" + ExprString(left) + "[" + ExprString(index) + "])"
  }

  /** The renderings of a list of expressions, in order. */
  function ExprStrings(es: seq<Expr>): (r: seq<Bytes>)
    decreases es, 1
  {
    seq(|es|, i requires 0 <= i < |es| => ExprString(es[i]))
  }

  function IdentStrings(ids: seq<Ident>): (r: seq<Bytes>)
  {
    seq(|ids|, i requires 0 <= i < |ids| => IdentString(ids[i]))
  }

  /** The renderings of hash entries, in the order of the sequence. */
  function PairStrings(ps: seq<Pair>): (r: seq<Bytes>)
    decreases ps, 2
  {
    seq(|ps|, i requires 0 <= i < |ps| => PairString(ps[i]))
  }

  /** A hash entry renders as key:value. */
  function PairString(p: Pair): Bytes
    decreases p, 1
  {
    ExprString(p.key) + ":" + ExprString(p.value)
  }

  /** A program renders its statements back to back. */
  function ProgramString(p: Program): Bytes
  {
    Concat(StmtStrings(p.statements))
  }
}

=== FILE: ast_brackets.dfy ===
/**
 Every rendering is fully bracketed: when the text a tree copies verbatim into
 its rendering (token literals, names and operators) has no brackets, the
 rendering is balanced in parentheses, square brackets and braces, and each
 prefix, infix and index expression renders as one parenthesised group.
 */
module AstBrackets {
  import opened Tokens
  import opened Wrappers
  import opened Text
  import opened Brackets
  import opened Ast

  // The text a node copies verbatim into its rendering has no brackets.

  predicate OptionPlain(e: Option<Expr>)
    decreases e, 1
  {
    match e
    case None => true
    case Some(x) => ExprPlain(x)
  }

  predicate StmtPlain(s: Stmt)
    decreases s, 2
  {
    match s
    case VarStatement(tok, name, value) => Plain(tok.literal) && Plain(name.value) && OptionPlain(value)
    case ReturnStatement(tok, value) => Plain(tok.literal) && OptionPlain(value)
    case ExpressionStatement(_, value) => OptionPlain(value)
    case BlockStatement(b) => BlockPlain(b)
  }

  predicate BlockPlain(b: Block)
    decreases b, 0
  {
    forall i :: 0 <= i < |b.statements| ==> StmtPlain(b.statements[i])
  }

  predicate ExprPlain(e: Expr)
    decreases e, 0
  {
    match e
    case Identifier(id) => Plain(id.value)
    case IntegerLiteral(tok) => Plain(tok.literal)
    case FloatLiteral(tok) => Plain(tok.literal)
    case StringLiteral(tok, _) => Plain(tok.literal)
    case Boolean(tok) => Plain(tok.literal)
    case PrefixExpression(_, op, right) => Plain(op) && ExprPlain(right)
    case InfixExpression(_, left, op, right) => ExprPlain(left) && Plain(op) && ExprPlain(right)
    case IfExpression(_, condition, consequence, alternative) =>
      && ExprPlain(condition) && BlockPlain(consequence)
      && (match alternative case None => true case Some(alt) => BlockPlain(alt))
    case FunctionLiteral(tok, parameters, body) =>
      && Plain(tok.literal) && BlockPlain(body)
      && forall i :: 0 <= i < |parameters| ==> Plain(parameters[i].value)
    case CallExpression(_, callee, arguments) =>
      ExprPlain(callee) && forall i :: 0 <= i < |arguments| ==> ExprPlain(arguments[i])
    case ForExpression(_, condition, body) => ExprPlain(condition) && BlockPlain(body)
    case ArrayLiteral(_, elements) => forall i :: 0 <= i < |elements| ==> ExprPlain(elements[i])
    case HashLiteral(_, pairs) =>
      forall i :: 0 <= i < |pairs| ==> ExprPlain(pairs[i].key) && ExprPlain(pairs[i].value)
    case IndexExpression(_, left, index) => ExprPlain(left) && ExprPlain(index)
  }

  predicate ProgramPlain(p: Program)
  {
    forall i :: 0 <= i < |p.statements| ==> StmtPlain(p.statements[i])
  }

  // Lists of well-bracketed renderings

  lemma {:induction false} ConcatWellBracketed(parts: seq<Bytes>)
    requires forall i :: 0 <= i < |parts| ==> WellBracketed(parts[i])
    ensures WellBracketed(Concat(parts))
  {
    if parts == [] {
      PlainWellBracketed([]);
    } else {
      ConcatWellBracketed(parts[1..]);
      WellBracketedAppend(parts[0], Concat(parts[1..]));
    }
  }

  lemma {:induction false} JoinWellBracketed(parts: seq<Bytes>, sep: Bytes)
    requires Plain(sep)
    requires forall i :: 0 <= i < |parts| ==> WellBracketed(parts[i])
    ensures WellBracketed(Join(parts, sep))
  {
    if |parts| == 0 {
      PlainWellBracketed([]);
    } else if |parts| > 1 {
      JoinWellBracketed(parts[1..], sep);
      PlainWellBracketed(sep);
      WellBracketedAppend(parts[0], sep);
      WellBracketedAppend(parts[0] + sep, Join(parts[1..], sep));
    }
  }

  /** Three well-bracketed texts side by side. */
  lemma WellBracketedAppend3(a: Bytes, b: Bytes, c: Bytes)
    requires WellBracketed(a) && WellBracketed(b) && WellBracketed(c)
    ensures WellBracketed(a + b + c)
  {
    WellBracketedAppend(a, b);
    WellBracketedAppend(a + b, c);
  }

  // The theorem, by induction over the tree

  lemma {:induction false} OptionWellBracketed(e: Option<Expr>)
    requires OptionPlain(e)
    ensures WellBracketed(OptionString(e))
    decreases e, 1
  {
    match e
    case None => PlainWellBracketed([]);
    case Some(x) => ExprWellBracketed(x);
  }

  lemma {:induction false} StmtWellBracketed(s: Stmt)
    requires StmtPlain(s)
    ensures WellBracketed(StmtString(s))
    decreases s, 2
  {
    match s
    case VarStatement(tok, name, value) =>
      PlainWellBracketed(tok.literal + " " + name.value + " = ");
      OptionWellBracketed(value);
      PlainWellBracketed(";");
      WellBracketedAppend3(tok.literal + " " + name.value + " = ", OptionString(value), ";");
    case ReturnStatement(tok, value) =>
      PlainWellBracketed(tok.literal + " ");
      OptionWellBracketed(value);
      PlainWellBracketed(";");
      WellBracketedAppend3(tok.literal + " ", OptionString(value), ";");
    case ExpressionStatement(_, value) =>
      OptionWellBracketed(value);
    case BlockStatement(b) =>
      BlockWellBracketed(b);
  }

  lemma {:induction false} BlockWellBracketed(b: Block)
    requires BlockPlain(b)
    ensures WellBracketed(BlockString(b))
    decreases b, 0
  {
    var parts := StmtStrings(b.statements);
    forall i | 0 <= i < |parts|
      ensures WellBracketed(parts[i])
    {
      StmtWellBracketed(b.statements[i]);
    }
    ConcatWellBracketed(parts);
  }

  // The shape of each rendering template, one lemma per template

  lemma PrefixShape(op: Bytes, right: Bytes)
    requires Plain(op) && WellBracketed(right)
    ensures Group("(" + op + right + ")")
  {
    PlainWellBracketed(op);
    WellBracketedAppend(op, right);
    WellBracketedEnclose(op + right, '(', ')');
    assert "(" + op + right + ")" == ['('] + (op + right) + [')'];
  }

  lemma InfixShape(left: Bytes, op: Bytes, right: Bytes)
    requires WellBracketed(left) && Plain(op) && WellBracketed(right)
    ensures Group("(" + left + " " + op + " " + right + ")")
  {
    PlainWellBracketed(" " + op + " ");
    WellBracketedAppend3(left, " " + op + " ", right);
    var inner := left + (" " + op + " ") + right;
    WellBracketedEnclose(inner, '(', ')');
    assert "(" + left + " " + op + " " + right + ")" == ['('] + inner + [')'];
  }

  lemma IndexShape(left: Bytes, index: Bytes)
    requires WellBracketed(left) && WellBracketed(index)
    ensures Group("(" + left + "[" + index + "])")
  {
    WellBracketedEnclose(index, '[', ']');
    WellBracketedAppend(left, ['['] + index + [']']);
    var inner := left + (['['] + index + [']']);
    WellBracketedEnclose(inner, '(', ')');
    assert "(" + left + "[" + index + "])" == ['('] + inner + [')'];
  }

  /** The shape shared by `if` and `for`: a keyword, a condition, a space, a block and a tail. */
  lemma KeywordShape(keyword: Bytes, condition: Bytes, block: Bytes, tail: Bytes)
    requires Plain(keyword) && WellBracketed(condition) && WellBracketed(block) && WellBracketed(tail)
    ensures WellBracketed(keyword + condition + " " + block + tail)
  {
    PlainWellBracketed(keyword);
    PlainWellBracketed(" ");
    WellBracketedAppend3(keyword, condition, " ");
    WellBracketedAppend3(keyword + condition + " ", block, tail);
  }

  lemma ElseShape(alternative: Option<Block>)
    requires alternative.Some? ==> BlockPlain(alternative.value)
    ensures WellBracketed(match alternative case None => [] case Some(alt) => "else " + BlockString(alt))
  {
    match alternative {
      case None => PlainWellBracketed([]);
      case Some(alt) =>
        BlockWellBracketed(alt);
        PlainWellBracketed("else ");
        WellBracketedAppend("else ", BlockString(alt));
    }
  }

  lemma ListShape(head: Bytes, list: Bytes, open: Byte, close: Byte, tail: Bytes)
    requires WellBracketed(head) && WellBracketed(list) && WellBracketed(tail)
    requires IsPair(open, close)
    ensures WellBracketed(head + [open] + list + [close] + tail)
  {
    WellBracketedEnclose(list, open, close);
    WellBracketedAppend3(head, [open] + list + [close], tail);
    assert head + [open] + list + [close] + tail == head + ([open] + list + [close]) + tail;
  }

  lemma {:induction false} ExprsWellBracketed(es: seq<Expr>)
    requires forall i :: 0 <= i < |es| ==> ExprPlain(es[i])
    ensures WellBracketed(Join(ExprStrings(es), ", "))
    decreases es, 1
  {
    var items := ExprStrings(es);
    forall i | 0 <= i < |items|
      ensures WellBracketed(items[i])
    {
      ExprWellBracketed(es[i]);
    }
    PlainWellBracketed(", ");
    JoinWellBracketed(items, ", ");
  }

  lemma {:induction false} PairsWellBracketed(ps: seq<Pair>)
    requires forall i :: 0 <= i < |ps| ==> ExprPlain(ps[i].key) && ExprPlain(ps[i].value)
    ensures WellBracketed(Join(PairStrings(ps), ", "))
    decreases ps, 2
  {
    var entries := PairStrings(ps);
    forall i | 0 <= i < |entries|
      ensures WellBracketed(entries[i])
    {
      PairWellBracketed(ps[i]);
    }
    PlainWellBracketed(", ");
    JoinWellBracketed(entries, ", ");
  }

  lemma {:induction false} PairWellBracketed(p: Pair)
    requires ExprPlain(p.key) && ExprPlain(p.value)
    ensures WellBracketed(PairString(p))
    decreases p, 1
  {
    ExprWellBracketed(p.key);
    ExprWellBracketed(p.value);
    PlainWellBracketed(":");
    WellBracketedAppend3(ExprString(p.key), ":", ExprString(p.value));
  }

  lemma ParametersWellBracketed(parameters: seq<Ident>)
    requires forall i :: 0 <= i < |parameters| ==> Plain(parameters[i].value)
    ensures WellBracketed(Join(IdentStrings(parameters), ", "))
  {
    var names := IdentStrings(parameters);
    forall i | 0 <= i < |names|
      ensures WellBracketed(names[i])
    {
      PlainWellBracketed(parameters[i].value);
    }
    JoinWellBracketed(names, ", ");
  }

  lemma {:induction false} ExprWellBracketed(e: Expr)
    requires ExprPlain(e)
    ensures WellBracketed(ExprString(e))
    ensures e.PrefixExpression? || e.InfixExpression? || e.IndexExpression? ==> Group(ExprString(e))
    decreases e, 1
  {
    match e
    case Identifier(id) => PlainWellBracketed(id.value);
    case IntegerLiteral(tok) => PlainWellBracketed(tok.literal);
    case FloatLiteral(tok) => PlainWellBracketed(tok.literal);
    case StringLiteral(tok, _) => PlainWellBracketed(tok.literal);
    case Boolean(tok) => PlainWellBracketed(tok.literal);
    case PrefixExpression(_, op, right) =>
      ExprWellBracketed(right);
      PrefixShape(op, ExprString(right));
    case InfixExpression(_, left, op, right) =>
      ExprWellBracketed(left);
      ExprWellBracketed(right);
      InfixShape(ExprString(left), op, ExprString(right));
    case IndexExpression(_, left, index) =>
      ExprWellBracketed(left);
      ExprWellBracketed(index);
      IndexShape(ExprString(left), ExprString(index));
    case IfExpression(_, _, _, _) => BlockExprWellBracketed(e);
    case ForExpression(_, _, _) => BlockExprWellBracketed(e);
    case FunctionLiteral(_, _, _) => BlockExprWellBracketed(e);
    case CallExpression(_, _, _) => ListExprWellBracketed(e);
    case ArrayLiteral(_, _) => ListExprWellBracketed(e);
    case HashLiteral(_, _) => ListExprWellBracketed(e);
  }

  /** The expressions that render a block: if, for and function literals. */
  lemma {:induction false} BlockExprWellBracketed(e: Expr)
    requires ExprPlain(e)
    requires e.IfExpression? || e.ForExpression? || e.FunctionLiteral?
    ensures WellBracketed(ExprString(e))
    decreases e, 0
  {
    match e
    case IfExpression(_, condition, consequence, alternative) =>
      ExprWellBracketed(condition);
      BlockWellBracketed(consequence);
      ElseShape(alternative);
      KeywordShape("if", ExprString(condition), BlockString(consequence),
                   match alternative case None => [] case Some(alt) => "else " + BlockString(alt));
    case FunctionLiteral(tok, parameters, body) =>
      ParametersWellBracketed(parameters);
      BlockWellBracketed(body);
      PlainWellBracketed(tok.literal);
      ListShape(tok.literal, Join(IdentStrings(parameters), ", "), '(', ')', BlockString(body));
    case ForExpression(_, condition, body) =>
      ExprWellBracketed(condition);
      BlockWellBracketed(body);
      PlainWellBracketed([]);
      KeywordShape("for", ExprString(condition), BlockString(body), []);
      assert ExprString(e) == "for" + ExprString(condition) + " " + BlockString(body) + [];
  }

  /** The expressions that render a comma-separated list: calls, arrays and hashes. */
  lemma {:induction false} ListExprWellBracketed(e: Expr)
    requires ExprPlain(e)
    requires e.CallExpression? || e.ArrayLiteral? || e.HashLiteral?
    ensures WellBracketed(ExprString(e))
    decreases e, 0
  {
    match e
    case CallExpression(_, callee, arguments) =>
      ExprWellBracketed(callee);
      ExprsWellBracketed(arguments);
      PlainWellBracketed([]);
      ListShape(ExprString(callee), Join(ExprStrings(arguments), ", "), '(', ')', []);
      assert ExprString(e) == ExprString(callee) + ['('] + Join(ExprStrings(arguments), ", ") + [')'] + [];
    case ArrayLiteral(_, elements) =>
      ExprsWellBracketed(elements);
      WellBracketedEnclose(Join(ExprStrings(elements), ", "), '[', ']');
    case HashLiteral(_, pairs) =>
      PairsWellBracketed(pairs);
      WellBracketedEnclose(Join(PairStrings(pairs), ", "), '{', '}');
  }

  /** A program whose verbatim text has no brackets renders well bracketed. */
  lemma ProgramWellBracketed(p: Program)
    requires ProgramPlain(p)
    ensures WellBracketed(ProgramString(p))
  {
    var parts := StmtStrings(p.statements);
    forall i | 0 <= i < |parts|
      ensures WellBracketed(parts[i])
    {
      StmtWellBracketed(p.statements[i]);
    }
    ConcatWellBracketed(parts);
  }
}

=== FILE: ast_examples.dfy ===
/** Renderings of small hand-built trees. */
module AstExamples {
  import opened Tokens
  import opened Wrappers
  import opened Text
  import opened Brackets
  import opened Ast

  function IntLeaf(digits: Bytes): Expr
  {
    IntegerLiteral(Token(INT, digits))
  }

  function Name(name: Bytes): Ident
  {
    Ident(Token(IDENT, name), name)
  }

  /** The expression statement `5 + 5` renders as `(5 + 5)`, and so does a program holding only it. */
  lemma SumExample()
    ensures var sum := InfixExpression(Token(PLUS, "+"), IntLeaf("5"), "+", IntLeaf("5"));
      var stmt := ExpressionStatement(Token(INT, "5"), Some(sum));
      StmtString(stmt) == "(5 + 5)" && ProgramString(Program([stmt])) == "(5 + 5)"
  {
    var sum := InfixExpression(Token(PLUS, "+"), IntLeaf("5"), "+", IntLeaf("5"));
    var stmt := ExpressionStatement(Token(INT, "5"), Some(sum));
    var parts := StmtStrings([stmt]);
    assert parts == [StmtString(stmt)];
    assert parts[1..] == [];
    assert Concat(parts[1..]) == [];
    assert Concat(parts) == parts[0] + Concat(parts[1..]);
    assert ProgramString(Program([stmt])) == StmtString(stmt) + [];
  }

  /**
   The tree for `if (x) { return x; }` with no alternative renders as
   `ifx return x;`: the condition follows the keyword with nothing between,
   the block renders as its one statement, and no else part is emitted.
   */
  lemma IfExample()
    ensures var ret := ReturnStatement(Token(RETURN, "return"), Some(Identifier(Name("x"))));
      var cond := IfExpression(Token(IF, "if"), Identifier(Name("x")), Block(Token(LBRACE, "{"), [ret]), None);
      ExprString(cond) == "ifx return x;"
  {
    var ret := ReturnStatement(Token(RETURN, "return"), Some(Identifier(Name("x"))));
    assert StmtString(ret) == "return x;";
    assert BlockString(Block(Token(LBRACE, "{"), [ret])) == "return x;" by {
      var parts := StmtStrings([ret]);
      assert parts == ["return x;"];
      assert parts[1..] == [];
      assert Concat(parts[1..]) == [];
      assert Concat(parts) == parts[0] + Concat(parts[1..]);
    }
  }

  /**
   A string literal renders without its quotes, so a string holding one
   parenthesis renders as text that is not well bracketed.
   */
  lemma StringLiteralExample()
    ensures var s := StringLiteral(Token(STRING, "("), "(");
      ExprString(s) == "(" && !WellBracketed(ExprString(s))
  {
    var text: Bytes := "(";
    assert text[..0] == [];
    assert Depth(text, '(', ')') == 1;
  }
}

=== FILE: ast_properties.dfy ===
/**
 Properties of the syntax tree's renderings: how programs and blocks compose,
 how optional children show up, and that every rendering is fully bracketed.
 */
module AstProperties {
  import opened Tokens
  import opened Wrappers
  import opened Text
  import opened Brackets
  import opened Ast

  // Composition of statement lists

  lemma StmtStringsAppend(s1: seq<Stmt>, s2: seq<Stmt>)
    ensures StmtStrings(s1 + s2) == StmtStrings(s1) + StmtStrings(s2)
  {
  }

  /**
   A program renders as its statements' renderings back to back: the rendering
   of two statement lists put together is the two renderings put together, and
   the empty program renders as "".
   */
  lemma ProgramStringAppend(s1: seq<Stmt>, s2: seq<Stmt>)
    ensures ProgramString(Program(s1 + s2)) == ProgramString(Program(s1)) + ProgramString(Program(s2))
    ensures ProgramString(Program([])) == []
  {
    StmtStringsAppend(s1, s2);
    ConcatAppend(StmtStrings(s1), StmtStrings(s2));
  }

  /** A block renders like a program: no braces, no separators, append to append. */
  lemma BlockStringAppend(tok: Token, s1: seq<Stmt>, s2: seq<Stmt>)
    ensures BlockString(Block(tok, s1 + s2)) == BlockString(Block(tok, s1)) + BlockString(Block(tok, s2))
    ensures BlockString(Block(tok, [])) == []
    ensures StmtString(BlockStatement(Block(tok, s1 + s2))) == ProgramString(Program(s1 + s2))
  {
    StmtStringsAppend(s1, s2);
    ConcatAppend(StmtStrings(s1), StmtStrings(s2));
  }

  /**
   A program's token literal is its first statement's: appending statements
   never changes it, and a program without statements has "".
   */
  lemma ProgramTokenLiteralFirst(s1: seq<Stmt>, s2: seq<Stmt>)
    ensures s1 != [] ==> ProgramTokenLiteral(Program(s1 + s2)) == ProgramTokenLiteral(Program(s1))
    ensures s1 != [] ==> ProgramTokenLiteral(Program(s1)) == StmtTokenLiteral(s1[0])
    ensures ProgramTokenLiteral(Program([])) == []
  {
  }

  // Leaves and token literals

  /** Integer, float, string and boolean literals render exactly as their token literal. */
  lemma LeafRendersTokenLiteral(e: Expr)
    requires e.IntegerLiteral? || e.FloatLiteral? || e.StringLiteral? || e.Boolean?
    ensures ExprString(e) == ExprTokenLiteral(e)
  {
  }

  /**
   An identifier renders the name it denotes, but reports its token's literal:
   the two agree exactly when the name and the token literal are the same bytes.
   */
  lemma IdentifierRendersValue(id: Ident)
    ensures ExprString(Identifier(id)) == id.value
    ensures ExprString(Identifier(id)) == ExprTokenLiteral(Identifier(id)) <==> id.value == id.token.literal
  {
  }

  /** Prefix, infix and index expressions always render inside one pair of parentheses. */
  lemma OperatorParenthesised(e: Expr)
    requires e.PrefixExpression? || e.InfixExpression? || e.IndexExpression?
    ensures var r := ExprString(e); 2 <= |r| && r[0] == '(' && r[|r| - 1] == ')'
  {
  }

  // Optional children

  /**
   A var statement always ends in ';'; with a value, it is the rendering
   without one with the value's rendering put just before that ';'.
   */
  lemma VarStatementValue(tok: Token, name: Ident, value: Expr)
    ensures var bare := StmtString(VarStatement(tok, name, None));
      && bare == tok.literal + " " + name.value + " = ;"
      && StmtString(VarStatement(tok, name, Some(value))) == bare[..|bare| - 1] + ExprString(value) + ";"
  {
  }

  /**
   A return statement always ends in ';'; with a value, it is the rendering
   without one with the value's rendering put just before that ';'.
   */
  lemma ReturnStatementValue(tok: Token, value: Expr)
    ensures var bare := StmtString(ReturnStatement(tok, None));
      && bare == tok.literal + " ;"
      && StmtString(ReturnStatement(tok, Some(value))) == bare[..|bare| - 1] + ExprString(value) + ";"
  {
  }

  /** An expression statement renders its expression, and "" when it has none. */
  lemma ExpressionStatementValue(tok: Token, value: Expr)
    ensures StmtString(ExpressionStatement(tok, None)) == []
    ensures StmtString(ExpressionStatement(tok, Some(value))) == ExprString(value)
  {
  }

  /** An alternative adds "else " and its rendering after the if-expression's rendering, and nothing else. */
  lemma IfAlternative(tok: Token, condition: Expr, consequence: Block, alternative: Block)
    ensures ExprString(IfExpression(tok, condition, consequence, Some(alternative))) ==
      ExprString(IfExpression(tok, condition, consequence, None)) + "else " + BlockString(alternative)
  {
  }

  /** Empty parameter, argument, element and entry lists render as "()", "[]" and "{}". */
  lemma EmptyLists(tok: Token, callee: Expr, body: Block)
    ensures ExprString(FunctionLiteral(tok, [], body)) == tok.literal + "()" + BlockString(body)
    ensures ExprString(CallExpression(tok, callee, [])) == ExprString(callee) + "()"
    ensures ExprString(ArrayLiteral(tok, [])) == "[]"
    ensures ExprString(HashLiteral(tok, [])) == "{}"
  {
    assert IdentStrings([]) == [] && ExprStrings([]) == [] && PairStrings([]) == [];
  }

  /** Joining one more rendering: what comes before the closing bracket gains ", " (if needed) and the rendering. */
  lemma EncloseJoinAppend(prefix: Bytes, parts: seq<Bytes>, x: Bytes, close: Byte)
    ensures var before := prefix + Join(parts, ", ") + [close];
      prefix + Join(parts + [x], ", ") + [close] ==
        before[..|before| - 1] + (if parts == [] then [] else ", ") + x + [close]
  {
    JoinAppend(parts, x, ", ");
    var joined := Join(parts, ", ");
    DropLast(prefix + joined, close);
    if parts == [] {
      assert prefix + joined == prefix + [];
    } else {
      Regroup(prefix, joined, ", ", x);
    }
  }

  lemma DropLast(a: Bytes, c: Byte)
    ensures (a + [c])[..|a + [c]| - 1] == a
  {
    assert (a + [c])[..|a|] == a;
  }

  lemma Regroup(a: Bytes, b: Bytes, c: Bytes, d: Bytes)
    ensures a + (b + c + d) == a + b + c + d
  {
  }

  /**
   One more argument appears last, after ", " when the list was not empty: the
   arguments render in order.
   */
  lemma CallArgumentAppend(tok: Token, callee: Expr, args: seq<Expr>, arg: Expr)
    ensures var before := ExprString(CallExpression(tok, callee, args));
      ExprString(CallExpression(tok, callee, args + [arg])) ==
        before[..|before| - 1] + (if args == [] then [] else ", ") + ExprString(arg) + ")"
  {
    assert ExprStrings(args + [arg]) == ExprStrings(args) + [ExprString(arg)];
    EncloseJoinAppend(ExprString(callee) + "(", ExprStrings(args), ExprString(arg), ')');
  }

  /** One more element appears last, after ", " when the list was not empty. */
  lemma ArrayElementAppend(tok: Token, elements: seq<Expr>, element: Expr)
    ensures var before := ExprString(ArrayLiteral(tok, elements));
      ExprString(ArrayLiteral(tok, elements + [element])) ==
        before[..|before| - 1] + (if elements == [] then [] else ", ") + ExprString(element) + "]"
  {
    assert ExprStrings(elements + [element]) == ExprStrings(elements) + [ExprString(element)];
    EncloseJoinAppend("[", ExprStrings(elements), ExprString(element), ']');
  }

  /**
   One more entry lengthens a hash literal's rendering by its key:value text
   and, when there were entries, one ", " separator, wherever among the other
   entries it is rendered: the length does not depend on the visit order.
   */
  lemma HashEntryLength(tok: Token, pairs: seq<Pair>, pair: Pair, i: nat)
    requires i <= |pairs|
    ensures |ExprString(HashLiteral(tok, pairs[..i] + [pair] + pairs[i..]))| ==
      |ExprString(HashLiteral(tok, pairs))| + (if pairs == [] then 0 else 2) + |PairString(pair)|
  {
    var before, after := PairStrings(pairs[..i]), PairStrings(pairs[i..]);
    var x := PairString(pair);
    var all := pairs[..i] + [pair] + pairs[i..];
    assert PairStrings(all) == before + [x] + after;
    assert pairs == pairs[..i] + pairs[i..];
    assert PairStrings(pairs) == before + after;
    ConcatAppend(before, after);
    ConcatAppend(before + [x], after);
    ConcatAppend(before, [x]);
    assert Concat([x]) == x + Concat([]);
    JoinLength(before + [x] + after, ", ");
    if pairs != [] {
      JoinLength(before + after, ", ");
    }
  }
}

=== FILE: brackets.dfy ===
/**
 Bracket structure of text: how deep a prefix is nested in one kind of
 bracket, and when a text is balanced in all three kinds the renderings emit.
 */
module Brackets {
  import opened Tokens

  /** The three bracket pairs: parentheses, square brackets and braces. */
  predicate IsPair(open: Byte, close: Byte)
  {
    (open == '(' && close == ')') || (open == '[' && close == ']') || (open == '{' && close == '}')
  }

  predicate IsBracket(b: Byte)
  {
    b == '(' || b == ')' || b == '[' || b == ']' || b == '{' || b == '}'
  }

  /** Text with no bracket of any kind in it. */
  predicate Plain(s: Bytes)
  {
    forall i :: 0 <= i < |s| ==> !IsBracket(s[i])
  }

  /** The number of open brackets minus the number of close brackets of one pair in s. */
  function Depth(s: Bytes, open: Byte, close: Byte): int
  {
    if s == [] then 0
    else
      var last := s[|s| - 1];
      Depth(s[..|s| - 1], open, close) + (if last == open then 1 else if last == close then -1 else 0)
  }

  /** Every close bracket of the pair matches an earlier open one, and every open one is closed. */
  predicate Balanced(s: Bytes, open: Byte, close: Byte)
  {
    Depth(s, open, close) == 0 && forall k :: 0 <= k <= |s| ==> Depth(s[..k], open, close) >= 0
  }

  /** Balanced in parentheses, square brackets and braces, each kind on its own. */
  predicate WellBracketed(s: Bytes)
  {
    Balanced(s, '(', ')') && Balanced(s, '[', ']') && Balanced(s, '{', '}')
  }

  /**
   A single parenthesised group: it opens with '(' and closes with ')', and that
   first '(' stays open until the very last byte.
   */
  predicate Group(s: Bytes)
  {
    && 2 <= |s| && s[0] == '(' && s[|s| - 1] == ')'
    && WellBracketed(s)
    && forall k :: 0 < k < |s| ==> Depth(s[..k], '(', ')') > 0
  }

  /** Depth adds up over concatenation. */
  lemma {:induction false} DepthAppend(a: Bytes, b: Bytes, open: Byte, close: Byte)
    ensures Depth(a + b, open, close) == Depth(a, open, close) + Depth(b, open, close)
    decreases |b|
  {
    if b == [] {
      assert a + b == a;
    } else {
      var b' := b[..|b| - 1];
      assert (a + b)[..|a + b| - 1] == a + b';
      DepthAppend(a, b', open, close);
    }
  }

  /** Text without brackets has depth zero in every pair. */
  lemma {:induction false} PlainDepth(s: Bytes, open: Byte, close: Byte)
    requires Plain(s) && IsPair(open, close)
    ensures Depth(s, open, close) == 0
    decreases |s|
  {
    if s != [] {
      assert !IsBracket(s[|s| - 1]);
      PlainDepth(s[..|s| - 1], open, close);
    }
  }

  lemma PlainBalanced(s: Bytes, open: Byte, close: Byte)
    requires Plain(s) && IsPair(open, close)
    ensures Balanced(s, open, close)
  {
    forall k | 0 <= k <= |s|
      ensures Depth(s[..k], open, close) == 0
    {
      assert Plain(s[..k]);
      PlainDepth(s[..k], open, close);
    }
    PlainDepth(s, open, close);
  }

  /** Text without brackets is well bracketed. */
  lemma PlainWellBracketed(s: Bytes)
    requires Plain(s)
    ensures WellBracketed(s)
  {
    PlainBalanced(s, '(', ')');
    PlainBalanced(s, '[', ']');
    PlainBalanced(s, '{', '}');
  }

  /** A single byte outside a pair is balanced in that pair. */
  lemma BalancedByte(b: Byte, open: Byte, close: Byte)
    requires b != open && b != close
    ensures Balanced([b], open, close)
  {
    assert [b][..1] == [b];
    assert [b][..0] == [];
  }

  lemma BalancedAppend(a: Bytes, b: Bytes, open: Byte, close: Byte)
    requires Balanced(a, open, close) && Balanced(b, open, close)
    ensures Balanced(a + b, open, close)
  {
    DepthAppend(a, b, open, close);
    forall k | 0 <= k <= |a + b|
      ensures Depth((a + b)[..k], open, close) >= 0
    {
      if k <= |a| {
        assert (a + b)[..k] == a[..k];
      } else {
        assert (a + b)[..k] == a + b[..k - |a|];
        DepthAppend(a, b[..k - |a|], open, close);
      }
    }
  }

  /** Well-bracketed texts stay well bracketed when put side by side. */
  lemma WellBracketedAppend(a: Bytes, b: Bytes)
    requires WellBracketed(a) && WellBracketed(b)
    ensures WellBracketed(a + b)
  {
    BalancedAppend(a, b, '(', ')');
    BalancedAppend(a, b, '[', ']');
    BalancedAppend(a, b, '{', '}');
  }

  /** Enclosing balanced text in one more matching pair keeps it balanced in that pair. */
  lemma BalancedEnclose(s: Bytes, open: Byte, close: Byte)
    requires Balanced(s, open, close) && IsPair(open, close)
    ensures Balanced([open] + s + [close], open, close)
    ensures forall k :: 0 < k <= |s| + 1 ==> Depth(([open] + s + [close])[..k], open, close) > 0
  {
    var w := [open] + s + [close];
    DepthAppend([open], s, open, close);
    DepthAppend([open] + s, [close], open, close);
    forall k | 0 < k <= |s| + 1
      ensures Depth(w[..k], open, close) > 0
    {
      assert w[..k] == [open] + s[..k - 1];
      DepthAppend([open], s[..k - 1], open, close);
    }
    assert w[..|w|] == w;
    assert w[..0] == [];
  }

  /** Enclosing text in one pair leaves it as balanced as it was in another pair. */
  lemma BalancedEncloseOther(s: Bytes, open: Byte, close: Byte, open': Byte, close': Byte)
    requires IsPair(open, close) && IsPair(open', close') && open != open'
    requires Balanced(s, open', close')
    ensures Balanced([open] + s + [close], open', close')
  {
    BalancedByte(open, open', close');
    BalancedByte(close, open', close');
    BalancedAppend([open], s, open', close');
    BalancedAppend([open] + s, [close], open', close');
  }

  /** Enclosing well-bracketed text in a matching pair keeps it well bracketed. */
  lemma WellBracketedEnclose(s: Bytes, open: Byte, close: Byte)
    requires WellBracketed(s) && IsPair(open, close)
    ensures WellBracketed([open] + s + [close])
    ensures open == '(' ==> Group([open] + s + [close])
  {
    BalancedEnclose(s, open, close);
    if open == '(' {
      BalancedEncloseOther(s, open, close, '[', ']');
      BalancedEncloseOther(s, open, close, '{', '}');
    } else if open == '[' {
      BalancedEncloseOther(s, open, close, '(', ')');
      BalancedEncloseOther(s, open, close, '{', '}');
    } else {
      BalancedEncloseOther(s, open, close, '(', ')');
      BalancedEncloseOther(s, open, close, '[', ']');
    }
  }
}

=== FILE: lexer.dfy ===
/**
 The byte-level lexer (src/lexer/lexer.go) as a pure state-transition system.

 A Lexer value is the Go struct: the immutable input, the index of the byte
 under examination, the index of the next byte to read, and that byte. Every
 Go method that advances the cursor becomes a function returning the new state.
 */
module Lexer {
  import opened Tokens
  import opened Wrappers

  datatype Lexer = Lexer(input: Bytes, position: nat, readPosition: nat, ch: Byte)

  /** The byte at index i, or the NUL sentinel when i is past the end. */
  function ByteAt(input: Bytes, i: nat): Byte
  {
    if i < |input| then input[i] else NUL
  }

  /** The cursor invariant every state built by New keeps. */
  predicate Valid(l: Lexer)
  {
    l.readPosition == l.position + 1 && l.ch == ByteAt(l.input, l.position)
  }

  /** Advances the cursor by one byte, reading NUL once the input is exhausted. */
  function ReadChar(l: Lexer): (r: Lexer)
    ensures r.input == l.input
    ensures r.position == l.readPosition && r.readPosition == l.readPosition + 1
    ensures r.ch == ByteAt(l.input, l.readPosition)
    ensures Valid(l) ==> Valid(r) && r.position == l.position + 1
  {
    var ch := if l.readPosition >= |l.input| then NUL else l.input[l.readPosition];
    Lexer(l.input, l.readPosition, l.readPosition + 1, ch)
  }

  /** A lexer positioned on the first byte of the input. */
  function New(input: Bytes): (r: Lexer)
    ensures Valid(r) && r.input == input && r.position == 0
  {
    ReadChar(Lexer(input, 0, 0, NUL))
  }

  /** The byte after the current one, or NUL past the end; the state is untouched. */
  function PeekChar(l: Lexer): (b: Byte)
    ensures Valid(l) ==> b == ByteAt(l.input, l.position + 1)
  {
    if l.readPosition >= |l.input| then NUL else l.input[l.readPosition]
  }

  predicate IsLetter(c: Byte)
  {
    'a' <= c <= 'z' || 'A' <= c <= 'Z' || c == '_'
  }

  /** Decimal digits, and also '.', which the lexer accepts anywhere in a number. */
  predicate IsDigit(c: Byte)
  {
    '0' <= c <= '9' || c == '.'
  }

  predicate IsWhitespace(c: Byte)
  {
    c == ' ' || c == '\n' || c == '\t' || c == '\r'
  }

  /** Bytes that may occur inside a string literal: anything but the closing quote and NUL. */
  predicate InString(c: Byte)
  {
    c != '"' && c != NUL
  }

  /**
   Calls ReadChar while the current byte is accepted: the loop shared by
   skipWhitespace, readIdentifier, readNumber and readString. The state it stops
   in is the first one, at or after the start, whose byte is not accepted.
   */
  function ReadWhile(l: Lexer, accept: Byte -> bool): (r: Lexer)
    requires Valid(l) && !accept(NUL)
    ensures Valid(r) && r.input == l.input
    ensures l.position <= r.position
    ensures l.position <= |l.input| ==> r.position <= |l.input|
    ensures !accept(r.ch)
    ensures forall k :: l.position <= k < r.position ==> accept(ByteAt(l.input, k))
    decreases |l.input| - l.position
  {
    if accept(l.ch) then ReadWhile(ReadChar(l), accept) else l
  }

  /** Skips spaces, tabs, newlines and carriage returns. */
  function SkipWhitespace(l: Lexer): (r: Lexer)
    requires Valid(l)
    ensures Valid(r) && r.input == l.input
    ensures l.position <= r.position && !IsWhitespace(r.ch)
    ensures forall k :: l.position <= k < r.position ==> IsWhitespace(ByteAt(l.input, k))
  {
    ReadWhile(l, IsWhitespace)
  }

  /** Reads the maximal run of letters starting at the current byte. */
  function ReadIdentifier(l: Lexer): (res: (Bytes, Lexer))
    requires Valid(l) && l.position <= |l.input|
    ensures Valid(res.1) && res.1.input == l.input
    ensures l.position <= res.1.position <= |l.input|
    ensures res.0 == l.input[l.position .. res.1.position]
    ensures forall k :: l.position <= k < res.1.position ==> IsLetter(l.input[k])
    ensures !IsLetter(res.1.ch)
    ensures IsLetter(l.ch) ==> |res.0| > 0
  {
    var r := ReadWhile(l, IsLetter);
    assert forall k :: l.position <= k < r.position ==> ByteAt(l.input, k) == l.input[k];
    (l.input[l.position .. r.position], r)
  }

  /** Reads the maximal run of digits and dots starting at the current byte. */
  function ReadNumber(l: Lexer): (res: (Bytes, Lexer))
    requires Valid(l) && l.position <= |l.input|
    ensures Valid(res.1) && res.1.input == l.input
    ensures l.position <= res.1.position <= |l.input|
    ensures res.0 == l.input[l.position .. res.1.position]
    ensures forall k :: l.position <= k < res.1.position ==> IsDigit(l.input[k])
    ensures !IsDigit(res.1.ch)
    ensures IsDigit(l.ch) ==> |res.0| > 0
  {
    var r := ReadWhile(l, IsDigit);
    assert forall k :: l.position <= k < r.position ==> ByteAt(l.input, k) == l.input[k];
    (l.input[l.position .. r.position], r)
  }

  /**
   Reads the body of a string literal whose opening quote is the current byte.
   It stops on the closing quote, on a NUL byte, or at the end of the input; in
   the last two cases no error is reported and the body is what was read.
   */
  function ReadString(l: Lexer): (res: (Bytes, Lexer))
    requires Valid(l) && l.position < |l.input|
    ensures Valid(res.1) && res.1.input == l.input
    ensures l.position < res.1.position <= |l.input|
    ensures res.0 == l.input[l.position + 1 .. res.1.position]
    ensures forall k :: 0 <= k < |res.0| ==> InString(res.0[k])
    ensures !InString(res.1.ch)
  {
    var r := ReadWhile(ReadChar(l), InString);
    var body := l.input[l.position + 1 .. r.position];
    assert forall k :: 0 <= k < |body| ==> body[k] == ByteAt(l.input, l.position + 1 + k);
    (body, r)
  }

  /**
   Go's string(b) conversion of a byte: the UTF-8 encoding of the code point b.
   Below 0x80 that is the byte itself; from 0x80 on it is two bytes.
   */
  function ByteString(b: Byte): (s: Bytes)
    ensures b as int < 0x80 ==> s == [b]
    ensures DecodeByteString(s) == Some(b)
    ensures b as int >= 0x80 ==>
      |s| == 2 && s[0] as int / 64 == 3 && s[1] as int / 64 == 2 &&
      (s[0] as int % 64) * 64 + s[1] as int % 64 == b as int
  {
    if b as int < 0x80 then [b]
    else [(0xC0 + b as int / 64) as char, (0x80 + b as int % 64) as char]
  }

  /**
   The byte that a one-byte ASCII string or a two-byte UTF-8 sequence of a code
   point below 256 encodes, and None for any other text.
   */
  function DecodeByteString(s: Bytes): Option<Byte>
  {
    if |s| == 1 && s[0] as int < 0x80 then Some(s[0])
    else if |s| == 2 && s[0] as int / 64 == 3 && s[1] as int / 64 == 2 then
      var c := (s[0] as int % 64) * 64 + s[1] as int % 64;
      if 0x80 <= c < 0x100 then Some(c as char) else None
    else None
  }

  /**
   A token of the given kind whose literal is string(ch): one byte, ch itself,
   exactly when ch is ASCII, two bytes otherwise, and it decodes back to ch.
   */
  function NewToken(kind: TokenType, ch: Byte): (t: Token)
    ensures t.kind == kind
    ensures 1 <= |t.literal| <= 2
    ensures ch as int < 0x80 <==> t.literal == [ch]
    ensures DecodeByteString(t.literal) == Some(ch)
  {
    Token(kind, ByteString(ch))
  }

  /** The kind of each byte that forms a token on its own, whatever follows it. */
  function Punctuator(c: Byte): (k: Option<TokenType>)
    ensures k.Some? ==> c as int < 0x80 && k.value != EOF && k.value != STRING && k.value != ILLEGAL
  {
    match c
    case ';' => Some(SEMICOLON)
    case '(' => Some(LPAREN)
    case ')' => Some(RPAREN)
    case ',' => Some(COMMA)
    case '+' => Some(PLUS)
    case '{' => Some(LBRACE)
    case '}' => Some(RBRACE)
    case '[' => Some(LBRACKET)
    case ']' => Some(RBRACKET)
    case ':' => Some(COLON)
    case '-' => Some(MINUS)
    case '/' => Some(SLASH)
    case '*' => Some(ASTERISK)
    case '<' => Some(LT)
    case '>' => Some(GT)
    case _ => None
  }

  /** What a token's literal is, relative to the state l the token was scanned from and the state r after it. */
  predicate LiteralFits(t: Token, l: Lexer, r: Lexer)
  {
    match t.kind
    case EOF => t.literal == [] && l.position < r.position
    case ILLEGAL =>
      l.position < r.position <= |l.input| && t.literal == ByteString(l.input[r.position - 1])
    case STRING =>
      l.position + 2 + |t.literal| <= r.position <= |l.input| + 1 &&
      l.input[r.position - 2 - |t.literal|] == '"' &&
      t.literal == l.input[r.position - 1 - |t.literal| .. r.position - 1]
    case _ =>
      0 < |t.literal| && l.position + |t.literal| <= r.position <= |l.input| &&
      t.literal == l.input[r.position - |t.literal| .. r.position]
  }

  /** The token of an operator that may be followed by '=': `single` alone, `double` with the '='. */
  function ScanOperator(l: Lexer, single: TokenType, double: TokenType): (res: (Token, Lexer))
    requires Valid(l) && (l.ch == '=' || l.ch == '!')
    requires single != EOF && single != STRING && single != ILLEGAL
    requires double != EOF && double != STRING && double != ILLEGAL
    ensures Valid(res.1) && res.1.input == l.input
    ensures res.0.kind == (if PeekChar(l) == '=' then double else single)
    ensures res.0.literal == (if PeekChar(l) == '=' then [l.ch, '='] else [l.ch])
    ensures res.1.position == l.position + |res.0.literal|
    ensures LiteralFits(res.0, l, res.1)
  {
    if PeekChar(l) == '=' then
      var l' := ReadChar(l);
      (Token(double, [l.ch, l'.ch]), ReadChar(l'))
    else
      (NewToken(single, l.ch), ReadChar(l))
  }

  /** The token of a byte that stands alone, or of a byte no rule accepts. */
  function ScanByte(l: Lexer, kind: TokenType): (res: (Token, Lexer))
    requires Valid(l) && l.ch != NUL
    requires kind == ILLEGAL || (kind != EOF && kind != STRING && l.ch as int < 0x80)
    ensures Valid(res.1) && res.1.input == l.input
    ensures res.0.kind == kind
    ensures res.1.position == l.position + 1
    ensures l.ch as int < 0x80 ==> res.0.literal == [l.ch]
    ensures DecodeByteString(res.0.literal) == Some(l.ch)
    ensures LiteralFits(res.0, l, res.1)
  {
    (NewToken(kind, l.ch), ReadChar(l))
  }

  /** The token of a string literal whose opening quote is under the cursor. */
  function ScanString(l: Lexer): (res: (Token, Lexer))
    requires Valid(l) && l.ch == '"'
    ensures Valid(res.1) && res.1.input == l.input
    ensures res.0.kind == STRING
    ensures res.1.position == l.position + 2 + |res.0.literal|
    ensures forall k :: 0 <= k < |res.0.literal| ==> InString(res.0.literal[k])
    ensures !InString(ByteAt(l.input, res.1.position - 1))
    ensures LiteralFits(res.0, l, res.1)
  {
    var s := ReadString(l);
    (Token(STRING, s.0), ReadChar(s.1))
  }

  /** The token of an identifier or keyword starting under the cursor. */
  function ScanWord(l: Lexer, keywords: KeywordTable): (res: (Token, Lexer))
    requires Valid(l) && IsLetter(l.ch)
    ensures Valid(res.1) && res.1.input == l.input
    ensures res.0.kind == IDENT || res.0.kind.IsKeyword()
    ensures LiteralFits(res.0, l, res.1)
  {
    var s := ReadIdentifier(l);
    (Token(LookupIdent(keywords, s.0), s.0), s.1)
  }

  /** The token of a number starting under the cursor: FLOAT when it has a dot, else INT. */
  function ScanNumber(l: Lexer): (res: (Token, Lexer))
    requires Valid(l) && IsDigit(l.ch)
    ensures Valid(res.1) && res.1.input == l.input
    ensures res.0.kind == INT || res.0.kind == FLOAT
    ensures LiteralFits(res.0, l, res.1)
  {
    var s := ReadNumber(l);
    (Token(if '.' in s.0 then FLOAT else INT, s.0), s.1)
  }

  /** The token for the byte under the cursor, which is not whitespace. */
  function Scan(l: Lexer, keywords: KeywordTable): (res: (Token, Lexer))
    requires Valid(l)
    ensures Valid(res.1) && res.1.input == l.input
    ensures res.0.kind == EOF <==> l.ch == NUL
    ensures LiteralFits(res.0, l, res.1)
  {
    if l.ch == '"' then
      ScanString(l)
    else if l.ch == '=' then
      ScanOperator(l, ASSIGN, EQ)
    else if l.ch == '!' then
      ScanOperator(l, BANG, NOT_EQ)
    else if Punctuator(l.ch).Some? then
      ScanByte(l, Punctuator(l.ch).value)
    else if l.ch == NUL then
      (Token(EOF, []), ReadChar(l))
    else if IsLetter(l.ch) then
      ScanWord(l, keywords)
    else if IsDigit(l.ch) then
      ScanNumber(l)
    else
      ScanByte(l, ILLEGAL)
  }

  /**
   Skips whitespace and scans one token, returning it with the next state.
   Every call moves the cursor forward. A token other than EOF leaves the cursor
   at most one past the end of the input. The literal of every identifier,
   number and operator is the non-empty slice of the input that ends where the
   cursor stops; a string literal is the slice just after its opening quote.
   */
  function NextToken(l: Lexer, keywords: KeywordTable): (res: (Token, Lexer))
    requires Valid(l)
    ensures Valid(res.1) && res.1.input == l.input
    ensures l.position < res.1.position
    ensures res.0.kind != EOF ==> res.1.position <= |l.input| + 1
    ensures LiteralFits(res.0, l, res.1)
  {
    Scan(SkipWhitespace(l), keywords)
  }

  /**
   The token stream a parser pulls from a lexer: NextToken called until it
   yields EOF, that token included. It ends, because every token before EOF
   moves the cursor forward and leaves it at most one past the end of the input.
   */
  function Tokenize(l: Lexer, keywords: KeywordTable): (tokens: seq<Token>)
    requires Valid(l) && l.position <= |l.input| + 1
    ensures 0 < |tokens| && tokens[|tokens| - 1].kind == EOF
    ensures forall i :: 0 <= i < |tokens| - 1 ==> tokens[i].kind != EOF
    decreases |l.input| + 1 - l.position
  {
    var next := NextToken(l, keywords);
    if next.0.kind == EOF then [next.0] else [next.0] + Tokenize(next.1, keywords)
  }
}

=== FILE: lexer_examples.dfy ===
/** Whole-input token streams for the quoted-string rule and small sample programs. */
module LexerExamples {
  import opened Tokens
  import opened Lexer
  import opened LexerProperties

  /** A stream of one token: t, then EOF because t ends at or past the end of the input. */
  lemma LastToken(l: Lexer, keywords: KeywordTable, t: Token)
    requires Valid(l) && l.position <= |l.input| + 1
    requires NextToken(l, keywords).0 == t && t.kind != EOF
    requires |l.input| <= NextToken(l, keywords).1.position
    ensures Tokenize(l, keywords) == [t, Token(EOF, [])]
  {
    TokenizeAtEnd(NextToken(l, keywords).1, keywords);
    TokenizeStep(l, keywords);
  }

  /** A quoted text without quotes or NUL bytes lexes to one STRING token carrying exactly that text. */
  lemma QuotedString(t: Bytes, keywords: KeywordTable)
    requires forall k :: 0 <= k < |t| ==> InString(t[k])
    ensures Tokenize(New(['"'] + t + ['"']), keywords) == [Token(STRING, t), Token(EOF, [])]
  {
    var input := ['"'] + t + ['"'];
    StringToken(New(input), keywords, 0, |t| + 1);
    assert input[1 .. |t| + 1] == t;
    LastToken(New(input), keywords, Token(STRING, t));
  }

  /** Without its closing quote the string runs to the end of the input, and no error is reported. */
  lemma UnterminatedString(t: Bytes, keywords: KeywordTable)
    requires forall k :: 0 <= k < |t| ==> InString(t[k])
    ensures Tokenize(New(['"'] + t), keywords) == [Token(STRING, t), Token(EOF, [])]
  {
    var input := ['"'] + t;
    StringToken(New(input), keywords, 0, |t| + 1);
    assert input[1 .. |t| + 1] == t;
    LastToken(New(input), keywords, Token(STRING, t));
  }

  // The tokens of `10 == 10;`, one lemma per token boundary, then its stream
  // from each boundary on.

  lemma EqualityToken0(l: Lexer, keywords: KeywordTable)
    requires Valid(l) && l.input == "10 == 10;" && l.position == 0
    ensures NextToken(l, keywords).1.position == 2
    ensures Tokenize(l, keywords) == [Token(INT, "10")] + Tokenize(NextToken(l, keywords).1, keywords)
  {
    assert l.input[0..2] == "10";
    NumberToken(l, keywords, 0, 2);
    TokenizeStep(l, keywords);
  }

  lemma EqualityToken2(l: Lexer, keywords: KeywordTable)
    requires Valid(l) && l.input == "10 == 10;" && l.position == 2
    ensures NextToken(l, keywords).1.position == 5
    ensures Tokenize(l, keywords) == [Token(EQ, "==")] + Tokenize(NextToken(l, keywords).1, keywords)
  {
    EqualsToken(l, keywords, 3);
    TokenizeStep(l, keywords);
  }

  lemma EqualityToken5(l: Lexer, keywords: KeywordTable)
    requires Valid(l) && l.input == "10 == 10;" && l.position == 5
    ensures NextToken(l, keywords).1.position == 8
    ensures Tokenize(l, keywords) == [Token(INT, "10")] + Tokenize(NextToken(l, keywords).1, keywords)
  {
    assert l.input[6..8] == "10";
    NumberToken(l, keywords, 6, 8);
    TokenizeStep(l, keywords);
  }

  lemma EqualityFrom8(l: Lexer, keywords: KeywordTable)
    requires Valid(l) && l.input == "10 == 10;" && l.position == 8
    ensures Tokenize(l, keywords) == [Token(SEMICOLON, ";"), Token(EOF, "")]
  {
    PunctuatorToken(l, keywords, 8);
    LastToken(l, keywords, Token(SEMICOLON, ";"));
  }

  lemma EqualityFrom5(l: Lexer, keywords: KeywordTable)
    requires Valid(l) && l.input == "10 == 10;" && l.position == 5
    ensures Tokenize(l, keywords) ==
      [Token(INT, "10"), Token(SEMICOLON, ";"), Token(EOF, "")]
  {
    EqualityToken5(l, keywords);
    EqualityFrom8(NextToken(l, keywords).1, keywords);
  }

  lemma EqualityFrom2(l: Lexer, keywords: KeywordTable)
    requires Valid(l) && l.input == "10 == 10;" && l.position == 2
    ensures Tokenize(l, keywords) ==
      [Token(EQ, "=="), Token(INT, "10"), Token(SEMICOLON, ";"), Token(EOF, "")]
  {
    EqualityToken2(l, keywords);
    EqualityFrom5(NextToken(l, keywords).1, keywords);
  }

  /** `10 == 10;` lexes to INT, EQ, INT, SEMICOLON and EOF. */
  lemma EqualityExample(input: Bytes, keywords: KeywordTable)
    requires input == "10 == 10;"
    ensures Tokenize(New(input), keywords) ==
      [Token(INT, "10"), Token(EQ, "=="), Token(INT, "10"), Token(SEMICOLON, ";"), Token(EOF, "")]
  {
    EqualityToken0(New(input), keywords);
    EqualityFrom2(NextToken(New(input), keywords).1, keywords);
  }

  // The tokens of `var five = 5;`, then its stream from each token boundary on.

  lemma VarToken0(l: Lexer, keywords: KeywordTable)
    requires Valid(l) && l.input == "var five = 5;" && l.position == 0
    requires "var" in keywords && keywords["var"] == VAR
    ensures NextToken(l, keywords).1.position == 3
    ensures Tokenize(l, keywords) == [Token(VAR, "var")] + Tokenize(NextToken(l, keywords).1, keywords)
  {
    assert l.input[0..3] == "var";
    IdentifierToken(l, keywords, 0, 3);
    TokenizeStep(l, keywords);
  }

  lemma VarToken3(l: Lexer, keywords: KeywordTable)
    requires Valid(l) && l.input == "var five = 5;" && l.position == 3
    requires "five" !in keywords
    ensures NextToken(l, keywords).1.position == 8
    ensures Tokenize(l, keywords) == [Token(IDENT, "five")] + Tokenize(NextToken(l, keywords).1, keywords)
  {
    assert l.input[4..8] == "five";
    IdentifierToken(l, keywords, 4, 8);
    TokenizeStep(l, keywords);
  }

  lemma VarToken8(l: Lexer, keywords: KeywordTable)
    requires Valid(l) && l.input == "var five = 5;" && l.position == 8
    ensures NextToken(l, keywords).1.position == 10
    ensures Tokenize(l, keywords) == [Token(ASSIGN, "=")] + Tokenize(NextToken(l, keywords).1, keywords)
  {
    EqualsToken(l, keywords, 9);
    TokenizeStep(l, keywords);
  }

  lemma VarToken10(l: Lexer, keywords: KeywordTable)
    requires Valid(l) && l.input == "var five = 5;" && l.position == 10
    ensures NextToken(l, keywords).1.position == 12
    ensures Tokenize(l, keywords) == [Token(INT, "5")] + Tokenize(NextToken(l, keywords).1, keywords)
  {
    assert l.input[11..12] == "5";
    NumberToken(l, keywords, 11, 12);
    TokenizeStep(l, keywords);
  }

  lemma VarFrom12(l: Lexer, keywords: KeywordTable)
    requires Valid(l) && l.input == "var five = 5;" && l.position == 12
    ensures Tokenize(l, keywords) == [Token(SEMICOLON, ";"), Token(EOF, "")]
  {
    PunctuatorToken(l, keywords, 12);
    LastToken(l, keywords, Token(SEMICOLON, ";"));
  }

  lemma VarFrom10(l: Lexer, keywords: KeywordTable)
    requires Valid(l) && l.input == "var five = 5;" && l.position == 10
    ensures Tokenize(l, keywords) ==
      [Token(INT, "5"), Token(SEMICOLON, ";"), Token(EOF, "")]
  {
    VarToken10(l, keywords);
    VarFrom12(NextToken(l, keywords).1, keywords);
  }

  lemma VarFrom8(l: Lexer, keywords: KeywordTable)
    requires Valid(l) && l.input == "var five = 5;" && l.position == 8
    ensures Tokenize(l, keywords) ==
      [Token(ASSIGN, "="), Token(INT, "5"), Token(SEMICOLON, ";"), Token(EOF, "")]
  {
    VarToken8(l, keywords);
    VarFrom10(NextToken(l, keywords).1, keywords);
  }

  lemma VarFrom3(l: Lexer, keywords: KeywordTable)
    requires Valid(l) && l.input == "var five = 5;" && l.position == 3
    requires "five" !in keywords
    ensures Tokenize(l, keywords) ==
      [Token(IDENT, "five"), Token(ASSIGN, "="), Token(INT, "5"), Token(SEMICOLON, ";"), Token(EOF, "")]
  {
    VarToken3(l, keywords);
    VarFrom8(NextToken(l, keywords).1, keywords);
  }

  /**
   With `var` reserved as VAR and `five` not reserved, `var five = 5;` lexes to
   VAR, IDENT, ASSIGN, INT, SEMICOLON and EOF.
   */
  lemma VarStatementExample(input: Bytes, keywords: KeywordTable)
    requires input == "var five = 5;"
    requires "var" in keywords && keywords["var"] == VAR && "five" !in keywords
    ensures Tokenize(New(input), keywords) ==
      [Token(VAR, "var"), Token(IDENT, "five"), Token(ASSIGN, "="), Token(INT, "5"),
       Token(SEMICOLON, ";"), Token(EOF, "")]
  {
    VarToken0(New(input), keywords);
    VarFrom3(NextToken(New(input), keywords).1, keywords);
  }

  /**
   An input made only of digits and dots lexes to one number token carrying the
   whole input, a FLOAT exactly when there is a dot.
   */
  lemma WholeInputNumber(input: Bytes, keywords: KeywordTable)
    requires 0 < |input| && forall k :: 0 <= k < |input| ==> IsDigit(input[k])
    ensures Tokenize(New(input), keywords) ==
      [Token(if '.' in input then FLOAT else INT, input), Token(EOF, [])]
  {
    NumberToken(New(input), keywords, 0, |input|);
    assert input[0..|input|] == input;
    LastToken(New(input), keywords, Token(if '.' in input then FLOAT else INT, input));
  }

  /** `5.5` and `5.5.5` each lex to a single FLOAT token: any number of dots is accepted. */
  lemma FloatExamples(input: Bytes, keywords: KeywordTable)
    requires input == "5.5" || input == "5.5.5"
    ensures Tokenize(New(input), keywords) == [Token(FLOAT, input), Token(EOF, [])]
  {
    assert input[1] == '.';
    WholeInputNumber(input, keywords);
  }
}

=== FILE: lexer_properties.dfy ===
/**
 Properties of the lexer stated about the input bytes alone: where the next
 token starts, which bytes it covers, and which kind it gets.
 */
module LexerProperties {
  import opened Tokens
  import opened Wrappers
  import opened Lexer

  /** The next token after l starts at p: only whitespace lies between the cursor and p. */
  predicate StartsAt(l: Lexer, p: nat)
  {
    && l.position <= p
    && (forall k :: l.position <= k < p ==> IsWhitespace(ByteAt(l.input, k)))
    && !IsWhitespace(ByteAt(l.input, p))
  }

  /** ReadWhile stops exactly at the end q of the run of accepted bytes. */
  lemma {:induction false} ReadWhileStopsAt(l: Lexer, accept: Byte -> bool, q: nat)
    requires Valid(l) && !accept(NUL) && l.position <= q
    requires forall k :: l.position <= k < q ==> accept(ByteAt(l.input, k))
    requires !accept(ByteAt(l.input, q))
    ensures ReadWhile(l, accept).position == q
    decreases q - l.position
  {
    if accept(l.ch) {
      ReadWhileStopsAt(ReadChar(l), accept, q);
    }
  }

  /** The cursor after skipping whitespace is the start of the next token. */
  lemma SkipWhitespaceStopsAt(l: Lexer, p: nat)
    requires Valid(l) && StartsAt(l, p)
    ensures SkipWhitespace(l).position == p && SkipWhitespace(l).ch == ByteAt(l.input, p)
  {
    ReadWhileStopsAt(l, IsWhitespace, p);
  }

  /** n tokens pulled from l one after another. */
  function Pull(l: Lexer, keywords: KeywordTable, n: nat): seq<Token>
    requires Valid(l)
    decreases n
  {
    if n == 0 then [] else
    var next := NextToken(l, keywords);
    [next.0] + Pull(next.1, keywords, n - 1)
  }

  /** Once the input is exhausted, NextToken yields EOF with an empty literal and stays exhausted. */
  lemma EofAtEnd(l: Lexer, keywords: KeywordTable)
    requires Valid(l) && |l.input| <= l.position
    ensures NextToken(l, keywords).0 == Token(EOF, [])
    ensures |l.input| <= NextToken(l, keywords).1.position
  {
  }

  /** The token stream of an exhausted lexer is the EOF token alone. */
  lemma TokenizeAtEnd(l: Lexer, keywords: KeywordTable)
    requires Valid(l) && |l.input| <= l.position <= |l.input| + 1
    ensures Tokenize(l, keywords) == [Token(EOF, [])]
  {
    EofAtEnd(l, keywords);
  }

  /** The token stream is the next token followed by the stream of the state after it. */
  lemma TokenizeStep(l: Lexer, keywords: KeywordTable)
    requires Valid(l) && l.position <= |l.input| + 1
    requires NextToken(l, keywords).0.kind != EOF
    ensures Tokenize(l, keywords) == [NextToken(l, keywords).0] + Tokenize(NextToken(l, keywords).1, keywords)
  {
  }

  /** EOF is sticky: every one of any number of calls on an exhausted lexer yields EOF. */
  lemma {:induction false} EofSticky(l: Lexer, keywords: KeywordTable, n: nat)
    requires Valid(l) && |l.input| <= l.position
    ensures |Pull(l, keywords, n)| == n
    ensures forall i :: 0 <= i < n ==> Pull(l, keywords, n)[i] == Token(EOF, [])
    decreases n
  {
    if n > 0 {
      EofAtEnd(l, keywords);
      EofSticky(NextToken(l, keywords).1, keywords, n - 1);
    }
  }

  /**
   On input without NUL bytes from the cursor on, NextToken yields EOF exactly
   when nothing but whitespace is left.
   */
  lemma EofExactlyWhenOnlyWhitespaceLeft(l: Lexer, keywords: KeywordTable)
    requires Valid(l)
    requires forall k :: l.position <= k < |l.input| ==> l.input[k] != NUL
    ensures NextToken(l, keywords).0.kind == EOF <==>
      forall k :: l.position <= k < |l.input| ==> IsWhitespace(l.input[k])
  {
    var s := SkipWhitespace(l);
    if forall k :: l.position <= k < |l.input| ==> IsWhitespace(l.input[k]) {
      var end := if l.position < |l.input| then |l.input| else l.position;
      ReadWhileStopsAt(l, IsWhitespace, end);
    } else {
      var k :| l.position <= k < |l.input| && !IsWhitespace(l.input[k]);
      assert ByteAt(l.input, k) == l.input[k];
      assert s.position <= k;
      assert s.ch != NUL;
    }
  }

  /**
   On input without NUL bytes from the cursor on, a call that yields EOF leaves
   the lexer exhausted.
   */
  lemma EofAfterEof(l: Lexer, keywords: KeywordTable)
    requires Valid(l)
    requires forall k :: l.position <= k < |l.input| ==> l.input[k] != NUL
    requires NextToken(l, keywords).0.kind == EOF
    ensures |l.input| <= NextToken(l, keywords).1.position
  {
    var s := SkipWhitespace(l);
    assert ByteAt(l.input, s.position) == NUL;
  }

  /**
   On input without NUL bytes from the cursor on, once NextToken has yielded EOF,
   every one of any number of later calls yields EOF again.
   */
  lemma EofRepeats(l: Lexer, keywords: KeywordTable, n: nat)
    requires Valid(l)
    requires forall k :: l.position <= k < |l.input| ==> l.input[k] != NUL
    requires NextToken(l, keywords).0.kind == EOF
    ensures |Pull(NextToken(l, keywords).1, keywords, n)| == n
    ensures forall i :: 0 <= i < n ==> Pull(NextToken(l, keywords).1, keywords, n)[i] == Token(EOF, [])
  {
    EofAfterEof(l, keywords);
    EofSticky(NextToken(l, keywords).1, keywords, n);
  }

  /**
   A quote at p opens a string literal that runs to the next quote, NUL byte or
   the end of the input, whichever is first; the token carries the bytes in
   between and the cursor moves past the byte that closed it.
   */
  lemma StringToken(l: Lexer, keywords: KeywordTable, p: nat, q: nat)
    requires Valid(l) && StartsAt(l, p)
    requires p < q <= |l.input| && l.input[p] == '"'
    requires forall k :: p < k < q ==> InString(l.input[k])
    requires q == |l.input| || !InString(l.input[q])
    ensures NextToken(l, keywords).0 == Token(STRING, l.input[p + 1 .. q])
    ensures NextToken(l, keywords).1.position == q + 1
  {
    SkipWhitespaceStopsAt(l, p);
    var s := SkipWhitespace(l);
    ReadWhileStopsAt(ReadChar(s), InString, q);
  }

  /** '=' followed by '=' is EQ "=="; any other '=' is ASSIGN "=". */
  lemma EqualsToken(l: Lexer, keywords: KeywordTable, p: nat)
    requires Valid(l) && StartsAt(l, p) && p < |l.input| && l.input[p] == '='
    ensures p + 1 < |l.input| && l.input[p + 1] == '=' ==>
      NextToken(l, keywords).0 == Token(EQ, "==") && NextToken(l, keywords).1.position == p + 2
    ensures !(p + 1 < |l.input| && l.input[p + 1] == '=') ==>
      NextToken(l, keywords).0 == Token(ASSIGN, "=") && NextToken(l, keywords).1.position == p + 1
  {
    SkipWhitespaceStopsAt(l, p);
    ScanEquals(SkipWhitespace(l), keywords);
  }

  /** '!' followed by '=' is NOT_EQ "!="; any other '!' is BANG "!". */
  lemma BangToken(l: Lexer, keywords: KeywordTable, p: nat)
    requires Valid(l) && StartsAt(l, p) && p < |l.input| && l.input[p] == '!'
    ensures p + 1 < |l.input| && l.input[p + 1] == '=' ==>
      NextToken(l, keywords).0 == Token(NOT_EQ, "!=") && NextToken(l, keywords).1.position == p + 2
    ensures !(p + 1 < |l.input| && l.input[p + 1] == '=') ==>
      NextToken(l, keywords).0 == Token(BANG, "!") && NextToken(l, keywords).1.position == p + 1
  {
    SkipWhitespaceStopsAt(l, p);
    ScanBang(SkipWhitespace(l), keywords);
  }

  /** Each single-byte punctuator is a token of its kind whose literal is that byte. */
  lemma PunctuatorToken(l: Lexer, keywords: KeywordTable, p: nat)
    requires Valid(l) && StartsAt(l, p) && p < |l.input| && Punctuator(l.input[p]).Some?
    ensures NextToken(l, keywords).0 == Token(Punctuator(l.input[p]).value, [l.input[p]])
    ensures NextToken(l, keywords).1.position == p + 1
  {
    SkipWhitespaceStopsAt(l, p);
    ScanPunctuator(SkipWhitespace(l), keywords);
  }

  /**
   A letter at p starts an identifier: the token covers the maximal run of
   letters [p, q), and its kind is the keyword lookup of that run.
   */
  lemma IdentifierToken(l: Lexer, keywords: KeywordTable, p: nat, q: nat)
    requires Valid(l) && StartsAt(l, p)
    requires p < q <= |l.input|
    requires forall k :: p <= k < q ==> IsLetter(l.input[k])
    requires q == |l.input| || !IsLetter(l.input[q])
    ensures NextToken(l, keywords).0 == Token(LookupIdent(keywords, l.input[p..q]), l.input[p..q])
    ensures NextToken(l, keywords).1.position == q
  {
    SkipWhitespaceStopsAt(l, p);
    var s := SkipWhitespace(l);
    ReadWhileStopsAt(s, IsLetter, q);
    ScanLetter(s, keywords);
  }

  /**
   A digit or dot at p starts a number: the token covers the maximal run of
   digits and dots [p, q), and it is a FLOAT exactly when that run holds a dot.
   */
  lemma NumberToken(l: Lexer, keywords: KeywordTable, p: nat, q: nat)
    requires Valid(l) && StartsAt(l, p)
    requires p < q <= |l.input|
    requires forall k :: p <= k < q ==> IsDigit(l.input[k])
    requires q == |l.input| || !IsDigit(l.input[q])
    ensures NextToken(l, keywords).0.literal == l.input[p..q]
    ensures NextToken(l, keywords).0.kind == FLOAT <==> '.' in l.input[p..q]
    ensures NextToken(l, keywords).0.kind == INT <==> '.' !in l.input[p..q]
    ensures NextToken(l, keywords).1.position == q
  {
    SkipWhitespaceStopsAt(l, p);
    var s := SkipWhitespace(l);
    ReadWhileStopsAt(s, IsDigit, q);
    ScanDigit(s, keywords);
  }

  /** '=' under the cursor is scanned as ASSIGN or EQ. */
  lemma ScanEquals(s: Lexer, keywords: KeywordTable)
    requires Valid(s) && s.ch == '='
    ensures Scan(s, keywords) == ScanOperator(s, ASSIGN, EQ)
  {
  }

  /** '!' under the cursor is scanned as BANG or NOT_EQ. */
  lemma ScanBang(s: Lexer, keywords: KeywordTable)
    requires Valid(s) && s.ch == '!'
    ensures Scan(s, keywords) == ScanOperator(s, BANG, NOT_EQ)
  {
  }

  /** A punctuator under the cursor is scanned as a token of its own. */
  lemma ScanPunctuator(s: Lexer, keywords: KeywordTable)
    requires Valid(s) && Punctuator(s.ch).Some?
    ensures Scan(s, keywords) == ScanByte(s, Punctuator(s.ch).value)
  {
    assert s.ch != '"' && s.ch != '=' && s.ch != '!';
  }

  /** A letter under the cursor is scanned as a word. */
  lemma ScanLetter(s: Lexer, keywords: KeywordTable)
    requires Valid(s) && IsLetter(s.ch)
    ensures Scan(s, keywords) == ScanWord(s, keywords)
  {
    assert Punctuator(s.ch).None?;
  }

  /** A digit or dot under the cursor is scanned as a number. */
  lemma ScanDigit(s: Lexer, keywords: KeywordTable)
    requires Valid(s) && IsDigit(s.ch)
    ensures Scan(s, keywords) == ScanNumber(s)
  {
    assert Punctuator(s.ch).None? && !IsLetter(s.ch);
  }

  /**
   A byte no rule accepts is an ILLEGAL token carrying string(b): the byte itself
   when it is ASCII, its two-byte UTF-8 encoding otherwise.
   */
  lemma IllegalToken(l: Lexer, keywords: KeywordTable, p: nat)
    requires Valid(l) && StartsAt(l, p) && p < |l.input|
    requires var b := l.input[p];
      b != '"' && b != '=' && b != '!' && b != NUL && Punctuator(b).None? && !IsLetter(b) && !IsDigit(b)
    ensures NextToken(l, keywords).0 == Token(ILLEGAL, ByteString(l.input[p]))
    ensures l.input[p] as int < 0x80 ==> NextToken(l, keywords).0.literal == [l.input[p]]
    ensures NextToken(l, keywords).1.position == p + 1
  {
    SkipWhitespaceStopsAt(l, p);
  }
}

=== FILE: scanned_leaves.dfy ===
/**
 Where the lexer meets the tree: a leaf built from a token the lexer scanned
 renders as exactly the input bytes the token was read from, and the rendering
 has no brackets, so every tree over such leaves satisfies the bracket theorem
 of AstBrackets.
 */
module ScannedLeaves {
  import opened Tokens
  import opened Lexer
  import opened LexerProperties
  import opened Brackets
  import opened Ast
  import opened AstBrackets

  /** A run of letters or digits has no brackets. */
  lemma RunIsPlain(input: Bytes, p: nat, q: nat, accept: Byte -> bool)
    requires p <= q <= |input|
    requires forall k :: p <= k < q ==> accept(input[k])
    requires forall c :: accept(c) ==> !IsBracket(c)
    ensures Plain(input[p..q])
  {
    forall i | 0 <= i < q - p
      ensures !IsBracket(input[p..q][i])
    {
      assert input[p..q][i] == input[p + i];
      assert accept(input[p + i]);
    }
  }

  /**
   The identifier node for a scanned name (its value being the token's
   literal) renders as the name's bytes in the input.
   */
  lemma IdentifierLeaf(l: Lexer, keywords: KeywordTable, p: nat, q: nat)
    requires Valid(l) && StartsAt(l, p)
    requires p < q <= |l.input|
    requires forall k :: p <= k < q ==> IsLetter(l.input[k])
    requires q == |l.input| || !IsLetter(l.input[q])
    requires l.input[p..q] !in keywords
    ensures var t := NextToken(l, keywords).0;
      var leaf := Identifier(Ident(t, t.literal));
      t.kind == IDENT && ExprString(leaf) == l.input[p..q] && ExprTokenLiteral(leaf) == l.input[p..q]
      && ExprPlain(leaf)
  {
    IdentifierToken(l, keywords, p, q);
    RunIsPlain(l.input, p, q, IsLetter);
  }

  /** The integer or float node for a scanned number renders as the number's bytes in the input. */
  lemma NumberLeaf(l: Lexer, keywords: KeywordTable, p: nat, q: nat)
    requires Valid(l) && StartsAt(l, p)
    requires p < q <= |l.input|
    requires forall k :: p <= k < q ==> IsDigit(l.input[k])
    requires q == |l.input| || !IsDigit(l.input[q])
    ensures var t := NextToken(l, keywords).0;
      var leaf := if t.kind == INT then IntegerLiteral(t) else FloatLiteral(t);
      (t.kind == INT || t.kind == FLOAT) && ExprString(leaf) == l.input[p..q] && ExprPlain(leaf)
  {
    NumberToken(l, keywords, p, q);
    RunIsPlain(l.input, p, q, IsDigit);
  }

  /**
   The string node for a scanned string literal renders its contents without
   the quotes, so brackets inside a string reach the rendering as they are.
   */
  lemma StringLeaf(l: Lexer, keywords: KeywordTable, p: nat, q: nat)
    requires Valid(l) && StartsAt(l, p)
    requires p < q <= |l.input| && l.input[p] == '"'
    requires forall k :: p < k < q ==> InString(l.input[k])
    requires q == |l.input| || !InString(l.input[q])
    ensures var t := NextToken(l, keywords).0;
      t.kind == STRING && ExprString(StringLiteral(t, t.literal)) == l.input[p + 1 .. q]
  {
    StringToken(l, keywords, p, q);
  }
}

=== FILE: text.dfy ===
/**
 The two ways the syntax tree builds text from a list of renderings: plain
 concatenation (a loop of `out += s`) and Go's strings.Join.
 */
module Text {
  import opened Tokens

  /** The parts one after another, with nothing between them. */
  function Concat(parts: seq<Bytes>): Bytes
  {
    if parts == [] then [] else parts[0] + Concat(parts[1..])
  }

  /** strings.Join: the parts with sep between each neighbouring pair. */
  function Join(parts: seq<Bytes>, sep: Bytes): Bytes
  {
    if |parts| == 0 then []
    else if |parts| == 1 then parts[0]
    else parts[0] + sep + Join(parts[1..], sep)
  }

  /** Concatenation is a homomorphism from list append to byte-string append. */
  lemma {:induction false} ConcatAppend(a: seq<Bytes>, b: seq<Bytes>)
    ensures Concat(a + b) == Concat(a) + Concat(b)
  {
    if a != [] {
      assert (a + b)[1..] == a[1..] + b;
      ConcatAppend(a[1..], b);
    } else {
      assert a + b == b;
    }
  }

  /**
   Joining one more part adds the separator and the part at the end, as the
   builder loop of strings.Join does; the first part is added on its own.
   */
  lemma {:induction false} JoinAppend(a: seq<Bytes>, x: Bytes, sep: Bytes)
    ensures Join(a + [x], sep) == if a == [] then x else Join(a, sep) + sep + x
  {
    if |a| > 1 {
      assert (a + [x])[1..] == a[1..] + [x];
      JoinAppend(a[1..], x, sep);
    } else if |a| == 1 {
      assert (a + [x])[1..] == [x];
    }
  }

  /**
   The joined text is as long as the parts together plus one separator for
   each neighbouring pair.
   */
  lemma {:induction false} JoinLength(parts: seq<Bytes>, sep: Bytes)
    requires 0 < |parts|
    ensures |Join(parts, sep)| == |Concat(parts)| + (|parts| - 1) * |sep|
  {
    if |parts| > 1 {
      JoinLength(parts[1..], sep);
    }
  }
}

=== FILE: tokens.dfy ===
/**
 The token vocabulary the lexer and the syntax tree share.

 The token package of the repository is not part of this model: its kinds are
 an enumeration here, and its keyword lookup reads a keyword table that is
 passed in, so nothing below claims which words are reserved.
 */
module Tokens {

  /** A byte of a Go string. Bytes are written as the characters U+0000 to U+00FF. */
  type Byte = c: char | c as int < 256 witness '\0'

  /** A Go string: a sequence of bytes, with no encoding assumed. */
  type Bytes = seq<Byte>

  /** The byte the lexer reads past the end of its input. */
  const NUL: Byte := '\0'

  /** The token kinds: literals, operators, delimiters, keywords, and the two markers. */
  datatype TokenType =
    | ILLEGAL | EOF
    | IDENT | INT | FLOAT | STRING
    | ASSIGN | PLUS | MINUS | BANG | ASTERISK | SLASH | LT | GT | EQ | NOT_EQ
    | COMMA | SEMICOLON | COLON
    | LPAREN | RPAREN | LBRACE | RBRACE | LBRACKET | RBRACKET
    | FUNCTION | VAR | RETURN | IF | ELSE | TRUE | FALSE | FOR
  {
    /** True of the kinds that only a reserved word can have. */
    predicate IsKeyword()
    {
      FUNCTION? || VAR? || RETURN? || IF? || ELSE? || TRUE? || FALSE? || FOR?
    }
  }

  /** A token: its kind and the exact bytes it was scanned from. */
  datatype Token = Token(kind: TokenType, literal: Bytes)

  /** The reserved words, each mapped to its keyword kind. */
  type KeywordTable = m: map<Bytes, TokenType> | forall w :: w in m ==> m[w].IsKeyword()
    witness map[]

  /** The kind of an identifier-shaped word: its keyword kind if reserved, else IDENT. */
  function LookupIdent(keywords: KeywordTable, ident: Bytes): TokenType
  {
    if ident in keywords then keywords[ident] else IDENT
  }
}

=== FILE: wrappers.dfy ===
/** Optional values, used for the child nodes the syntax tree may leave out. */
module Wrappers {

  /** A value that may be absent: the model of a nil interface or pointer field. */
  datatype Option<+T> = None | Some(value: T)
}
